=== FILE: README.md ===
# Smarta site core, modelled in Dafny

This project models the deterministic logic of a small bilingual (Spanish/English)
marketing site built with Astro and React. The model covers:

- **Locale URL helpers** (`src/i18n/utils.ts`). Spanish is served from the root `/`.
  English is served under `/en`, because the default locale carries no prefix.
  Modelled in `i18n_utils.dfy`.
- **Partner carousel** (`PartnersSlider.jsx`). This is a state machine over
  `(currentIndex, isPlaying)` with wrap-around navigation, the auto-play tick,
  the empty-list rule and the label fallback. Modelled in `partners_slider.dfy`.
- **Vimeo hero player** (`VimeoHeroPlayer.jsx`):
  - `getVimeoVideoId`. Its five regular expressions become hand-written matchers.
    The anchored ones test the whole string; the unanchored ones are searched
    leftmost-first, as `String.prototype.match` does. `\w` is `[A-Za-z0-9_]`.
  - The `?h=` split of an id into numeric id and privacy hash.
  - `formatTime`, on whole seconds.
  - The `handlePlayPause` guard.

  These are in `vimeo_id.dfy` and `vimeo_player.dfy`.
- **Map widget** (`MapComponent.jsx`). Modelled in `map_widget.dfy`:
  - the UI-string bundle lookup with its Spanish fallback;
  - the map options chosen at creation;
  - the lock/unlock gesture toggle;
  - markers, popups and directions links;
  - the choice between the configured view and bounds fitting;
  - the lifecycle of the single map instance and the ever-growing marker list.

`optional.dfy` holds the `Option` type; JavaScript's `null`/`undefined` becomes `None`.
`text.dfy` holds substring occurrence and the leftmost `indexOf` search, which the
parsers share.

JavaScript truthiness is modelled where the code relies on it:

- An empty string counts as absent. This applies to a partner's `name`, a
  location's name and description, and the input of `getVimeoVideoId`.
- Zero seconds takes the `'0:00'` short-circuit.

Behaviours of the code worth knowing:

- Re-creating the map does **not** reset the lock flag, so after an unlock, a
  reconfiguration and a new map, the flag says "unlocked" while every gesture is
  disabled (`MapWidget.UnlockSurvivesRecreation`).
- Locations are not validated: no coordinate is skipped or range-checked.
- Concurrent loads are not coalesced. A load that settles while a map is live
  does nothing, and one that settles after a cleanup creates a map.
- The marker list is never cleared. Bounds fitting therefore covers the markers
  of every earlier map as well (`MapWidget.StaleMarkersInBounds`).
- The map's `catch` covers every call in the `try` block, not only the import. A
  throw after the map is created shows the error, keeps the markers already
  pushed, and leaves a map that the instance slot never holds, so no cleanup
  removes it (`MapWidget.ThrowStrandsMap`).
- The default arrays `center = [...]` and `locations = []` are new on every render,
  and both are in the create/cleanup effect's dependency list. On a page that omits
  either, every re-render re-creates the map, including the one caused by the lock
  button itself (`MapWidget.UnlockUndoneByRerender`; see Findings).
- The carousel's auto-play effect lists `partners.length` among its dependencies.
  That list is evaluated while rendering, before the guard for an absent list, so an
  absent list throws (`PartnersSlider.RenderAsWritten`; see Findings).

## Model

| member | source | states |
|---|---|---|
| I18nUtils.LocalizedUrl | src/i18n/utils.ts:21-26 | a Spanish path is returned unchanged; an English one is the path behind the `/en` prefix |
| I18nUtils.AlternateLocale | src/i18n/utils.ts:29-31 | the alternate locale is never the current one |
| I18nUtils.AlternateLocaleInvolution | src/i18n/utils.ts:29-31 | switching locale twice is the identity |
| I18nUtils.AlternateUrl | src/i18n/utils.ts:34-43 | from Spanish the result is the path localized for English; from English a leading `/en` is removed only when it is a raw prefix, other paths stay as they are, and an empty result becomes `/`; the result is never empty |
| I18nUtils.SpanishRoundTrip | src/i18n/utils.ts:34-43 | going to English and back restores every non-empty Spanish path; the empty path comes back as `/` |
| I18nUtils.EnglishRoundTrip | src/i18n/utils.ts:34-43 | going to Spanish and back restores every English path with something after its `/en` prefix |
| I18nUtils.StripIgnoresSegments | src/i18n/utils.ts:42 | the strip ignores path segments: `/enlace` becomes `lace`, `/en` becomes `/`, `/en/contacto` becomes `/contacto` |
| PartnersSlider.Next | src/components/react/PartnersSlider.jsx:28-30 | on a valid index the next index stays valid and is the successor modulo the partner count |
| PartnersSlider.Previous | src/components/react/PartnersSlider.jsx:24-26 | on a valid index the previous index stays valid and is the predecessor modulo the partner count |
| PartnersSlider.GoToNext | src/components/react/PartnersSlider.jsx:28-30 | the next button advances the index cyclically and leaves auto-play alone |
| PartnersSlider.GoToPrevious | src/components/react/PartnersSlider.jsx:24-26 | the previous button moves the index back cyclically and leaves auto-play alone |
| PartnersSlider.GoToSlide | src/components/react/PartnersSlider.jsx:20-22 | a dot click selects exactly that slide and leaves auto-play alone |
| PartnersSlider.TogglePlayPause | src/components/react/PartnersSlider.jsx:32-34 | the play/pause button flips auto-play and never moves the index |
| PartnersSlider.ToggleTwice | src/components/react/PartnersSlider.jsx:32-34 | toggling auto-play twice restores the slider |
| PartnersSlider.Tick | src/components/react/PartnersSlider.jsx:8-15 | an interval tick acts exactly like the next button when auto-play is armed (not a grid, playing, more than one partner) and does nothing otherwise |
| PartnersSlider.Label | src/components/react/PartnersSlider.jsx:153 | the caption is the partner's non-empty name, otherwise its alt text, and empty for an index naming no partner |
| PartnersSlider.Render | src/components/react/PartnersSlider.jsx:36-157 | the rendering the guard intends: it never throws; nothing is rendered exactly when the list is absent or empty; a non-empty list renders as a grid exactly in grid layout, with one row per entry of the list; the carousel has one dot per partner, marks the current one, shifts the slides by 100% per index and captions the current partner with its label |
| PartnersSlider.RenderAsWritten | src/components/react/PartnersSlider.jsx:8-38 | the component throws exactly when the list is absent, because the effect's dependency list reads `partners.length` before the guard; a present list renders as intended |
| PartnersSlider.AbsentListCrashes | src/components/react/PartnersSlider.jsx:18-38 | for an absent list, in either layout, the intended rendering shows nothing while the component as written throws |
| PartnersSlider.CarouselCaptionsPartner | src/components/react/PartnersSlider.jsx:4-157 | after any run of valid clicks and ticks on a non-empty list, the carousel's active dot is one of its dots, and the caption is that partner's non-empty name or else its alt text |
| PartnersSlider.NextPreviousInverse | src/components/react/PartnersSlider.jsx:24-30 | next and previous undo each other on every valid index |
| PartnersSlider.NextTimesWraps | src/components/react/PartnersSlider.jsx:28-30 | up to a full lap, k presses of next advance the index by k, wrapping once past the last slide |
| PartnersSlider.FullLap | src/components/react/PartnersSlider.jsx:28-30 | as many presses of next as there are partners return to the starting slide |
| PartnersSlider.IndexStaysInRange | src/components/react/PartnersSlider.jsx:4-34 | no sequence of button presses, dot clicks and interval ticks moves a valid index out of range |
| PartnersSlider.InitialInRange | src/components/react/PartnersSlider.jsx:4-34 | a fresh slider shows the first partner and auto-plays, and no run of valid clicks and ticks from there moves the index off the list |
| VimeoId.MatchAt | src/components/react/VimeoHeroPlayer.jsx:62-70 | a match of a URL pattern starts with the pattern's literal; its id is the text of the longest digit run right after the literal, so the next character is not a digit; the hashed pattern's hash is the longest alphanumeric run after a `/` behind the id; the other patterns capture a hash exactly when `?h=` and a word character follow the id, and it is then the longest word run after the marker; the plain and player patterns fail only where their literal is missing or no digit follows it; the hashed pattern fails where its literal is present only if no digit follows it or the digit run is not followed by a `/` and an alphanumeric character |
| VimeoId.MatchAfter | src/components/react/VimeoHeroPlayer.jsx:62-70 | after the literal, the id is the longest digit run and the hash is captured as the pattern's group prescribes; the plain and player patterns fail only where no digit follows; the hashed pattern fails only where no digit follows or the digit run is not followed by a `/` and an alphanumeric character |
| VimeoId.OptionalHashAt | src/components/react/VimeoHeroPlayer.jsx:69-70 | the optional group `(?:\?h=(\w+))?` captures exactly when `?h=` and a word character follow, and then captures the longest word run |
| VimeoId.SlashHashAt | src/components/react/VimeoHeroPlayer.jsx:63 | `\/([a-zA-Z0-9]+)` captures the longest alphanumeric run after a `/`, and fails exactly when no `/` followed by an alphanumeric character is there |
| VimeoId.FirstMatch | src/components/react/VimeoHeroPlayer.jsx:63-74 | the position found is a match with no match before it; when none is found, no position matches |
| VimeoId.Search | src/components/react/VimeoHeroPlayer.jsx:63-74 | `match` finds nothing exactly when no position matches, and otherwise returns the match at the leftmost matching position |
| VimeoId.LeftmostIsFound | src/components/react/VimeoHeroPlayer.jsx:63-74 | the match at the leftmost matching position is the one `match` returns |
| VimeoId.IsHashedId | src/components/react/VimeoHeroPlayer.jsx:54 | `^\d+\?h=[\w]+$` accepts a string exactly when it splits into a non-empty run of digits, the marker `?h=` and a non-empty run of word characters |
| VimeoId.PlainIdAnchored | src/components/react/VimeoHeroPlayer.jsx:58 | `^\d+$` accepts a string exactly when the greedy digit run from its start is non-empty and reaches its end |
| VimeoId.GetVideoId | src/components/react/VimeoHeroPlayer.jsx:51-84 | every result is a bare id or an id with a `?h=` hash; an input already of either shape is returned unchanged; the result is null exactly for an empty or absent input, or one that is not an id and matches neither the plain nor the player URL pattern anywhere |
| VimeoId.EmptyInput | src/components/react/VimeoHeroPlayer.jsx:52 | an empty or absent input yields null |
| VimeoId.NotAnId | src/components/react/VimeoHeroPlayer.jsx:54-60 | an input that does not start with a digit fails both anchored tests |
| VimeoId.HashedImpliesPlain | src/components/react/VimeoHeroPlayer.jsx:62-69 | wherever the hashed-URL pattern matches, the plain-URL pattern matches too |
| VimeoId.HashedUrlWins | src/components/react/VimeoHeroPlayer.jsx:62-66 | for an input that is not an id, the leftmost hashed-URL match decides the result as `<digits>?h=<hash>`, ahead of the other patterns |
| VimeoId.PlainUrlNext | src/components/react/VimeoHeroPlayer.jsx:68-80 | without a hashed-URL match, the leftmost `vimeo.com/<digits>` match decides, with its optional `?h=` hash appended |
| VimeoId.PlayerUrlLast | src/components/react/VimeoHeroPlayer.jsx:68-83 | without a plain-URL match, the leftmost `player.vimeo.com/video/<digits>` match decides, with its optional hash appended |
| VimeoId.GetVideoIdIdempotent | src/components/react/VimeoHeroPlayer.jsx:54-81 | applying the parser to its own result changes nothing |
| VimeoId.ShareLink | src/components/react/VimeoHeroPlayer.jsx:62-66 | a share link `…vimeo.com/<digits>/<hash>` yields `<digits>?h=<hash>` |
| VimeoId.PlayerLink | src/components/react/VimeoHeroPlayer.jsx:68-81 | an embed link `https://player.vimeo.com/video/<digits>[?h=<hash>]` yields exactly the id it embeds |
| VimeoId.PlayerLinkNoPlainMatch | src/components/react/VimeoHeroPlayer.jsx:69 | the plain pattern matches nowhere in an embed link |
| VimeoId.SplitIdHash | src/components/react/VimeoHeroPlayer.jsx:156-163 | an id without the marker has a null hash and is kept whole; otherwise neither the id part nor the hash part contains the marker |
| VimeoId.SplitJoinRoundTrip | src/components/react/VimeoHeroPlayer.jsx:156-163 | splitting an assembled `<digits>?h=<hash>` or bare `<digits>` recovers exactly the digits and the hash (or null) it was built from |
| VimeoId.SplitOfVideoId | src/components/react/VimeoHeroPlayer.jsx:156-163 | every id the parser returns splits into a numeric id and a hash that join back into it |
| VimeoPlayer.Decimal | src/components/react/VimeoHeroPlayer.jsx:308 | a number prints as a non-empty run of digits with no leading zero, one digit exactly below ten |
| VimeoPlayer.DecimalRoundTrip | src/components/react/VimeoHeroPlayer.jsx:308 | the printed digits denote the number |
| VimeoPlayer.PadStart | src/components/react/VimeoHeroPlayer.jsx:308 | padding reaches the width, keeps the string as the suffix and fills only with the fill character |
| VimeoPlayer.FormatTime | src/components/react/VimeoHeroPlayer.jsx:304-309 | the clock is a minute field denoting seconds/60 with no leading zero, a colon, and exactly two digits denoting seconds%60 |
| VimeoPlayer.ClockRoundTrip | src/components/react/VimeoHeroPlayer.jsx:304-309 | reading the clock back as minutes*60 + seconds gives the time it shows |
| VimeoPlayer.FormatTimeInjective | src/components/react/VimeoHeroPlayer.jsx:304-309 | different times show as different clocks |
| VimeoPlayer.ZeroClock | src/components/react/VimeoHeroPlayer.jsx:305-308 | zero shows as `0:00` and 59 seconds as `0:59` |
| VimeoPlayer.HandlePlayPause | src/components/react/VimeoHeroPlayer.jsx:246-254 | no command without a ready player; otherwise pause exactly when playing and play exactly when paused |
| VimeoPlayer.OnEvent | src/components/react/VimeoHeroPlayer.jsx:203-214 | the playing flag is set exactly by a play event; pause and ended clear it |
| VimeoPlayer.BeforeQuestion | src/components/react/VimeoHeroPlayer.jsx:318 | `split('?')[0]` is the longest prefix without a `?`, and it ends at the end of the string or at its first `?` |
| VimeoPlayer.ErrorLinkPath | src/components/react/VimeoHeroPlayer.jsx:316-318 | the fallback link's path is `undefined` when the parser gives null; otherwise it is a bare numeric id, the same one the `?h=` split hands to the player |
| VimeoPlayer.CutMatchesSplit | src/components/react/VimeoHeroPlayer.jsx:156-318 | on every id the parser accepts, cutting at the first `?` and the `?h=` split give the same numeric id |
| VimeoPlayer.ClickToggles | src/components/react/VimeoHeroPlayer.jsx:246-254 | with a ready player a click flips the playing flag and two clicks restore it; without one a click changes nothing |
| MapWidget.Strings | src/components/react/MapComponent.jsx:19-46 | the bundle for a known tag is that tag's, for any other tag the Spanish one, and it always defines the ten keys |
| MapWidget.BundlesAgreeOnKeys | src/components/react/MapComponent.jsx:19-44 | the Spanish and English bundles define exactly the same ten keys |
| MapWidget.UnknownLanguageFallsBack | src/components/react/MapComponent.jsx:46 | an unknown tag reads exactly like Spanish, and English reads differently |
| MapWidget.DirectionsUrl | src/components/react/MapComponent.jsx:135 | a directions link always starts with the Google Maps `daddr` prefix |
| MapWidget.DirectionsRoundTrip | src/components/react/MapComponent.jsx:135 | the directions link parses back to the coordinate it was built from |
| MapWidget.PlaceMarkers | src/components/react/MapComponent.jsx:122-153 | one marker per location in input order, at its coordinates with its name as alt text; only the first is primary; a popup exactly when the name or description is non-empty, whose heading is the location's name when it is non-empty, whose paragraph is its description when that is non-empty, and whose link goes to its coordinates |
| MapWidget.OnePrimary | src/components/react/MapComponent.jsx:122-126 | exactly one marker, the first, is primary whenever there are locations |
| MapWidget.NamedOfficePopup | src/components/react/MapComponent.jsx:122-149 | on the Spanish page a named location without description gets the primary marker, at its coordinates with its name as alt text, and a popup with its name as heading, no paragraph, and a "Cómo llegar" link to its coordinates |
| MapWidget.InitialOptions | src/components/react/MapComponent.jsx:87-95 | at creation scroll-wheel zoom, dragging, touch zoom, box zoom, keyboard and attribution are off, double-click zoom is on, and the zoom control is on exactly when controls are shown |
| MapWidget.ToggleScrollZoom | src/components/react/MapComponent.jsx:57-70 | without a map nothing changes, not even the flag; with one the flag flips, scroll-wheel zoom, dragging and touch zoom follow the new flag, and every other option, the view, the markers and the display state stay as they were |
| MapWidget.ToggleTwice | src/components/react/MapComponent.jsx:57-70 | when flag and gestures agree, toggling twice restores the widget |
| MapWidget.ToggleWithoutMap | src/components/react/MapComponent.jsx:57-58 | any number of clicks while no map is live change nothing |
| MapWidget.Cleanup | src/components/react/MapComponent.jsx:172-176 | cleanup empties the instance slot and keeps the marker list, the lock flag and the display state |
| MapWidget.LoadFinished | src/components/react/MapComponent.jsx:84-167 | a failed import shows the localized error and stops loading; an import with no mounted container or with a live map changes nothing; otherwise a map is created with the initial options and the markers placed for the locations, those markers are appended to the marker list, and loading stops; a throw after creation shows the error, appends only the markers pushed before it, and leaves the slot empty with one more stray map |
| MapWidget.ThrowStrandsMap | src/components/react/MapComponent.jsx:84-176 | after a throw behind the created map the error shows, the slot is empty, a stray map remains that the next cleanup does not remove, and the marker list has not shrunk |
| MapWidget.FitBoundsIffSeveral | src/components/react/MapComponent.jsx:155-158 | the view is fitted to the whole marker list with 10% padding exactly when there is more than one location; otherwise it is the configured center and zoom |
| MapWidget.MountedIsLocked | src/components/react/MapComponent.jsx:14-16 | a mounted widget starts locked, and so does a freshly created map |
| MapWidget.UnlockSurvivesRecreation | src/components/react/MapComponent.jsx:16-96 | an unlock flag survives cleanup and re-creation while the new map's gestures are disabled, so flag and gestures disagree |
| MapWidget.MarkersOnlyGrow | src/components/react/MapComponent.jsx:122-176 | across any run of clicks, cleanups and loads, the earlier marker list stays a prefix of the later one |
| MapWidget.Resolve | src/components/react/MapComponent.jsx:3-10 | an omitted `center` or `locations` becomes the default center or the empty list; the other props pass through |
| MapWidget.DepsAsWritten | src/components/react/MapComponent.jsx:4-178 | the dependency list of line 178 as written: the scalar props by value, a passed array by the page's identity, and an omitted `center` or `locations` by a default array created during that render alone |
| MapWidget.Deps | src/components/react/MapComponent.jsx:4-178 | the dependency list with the defaults shared: the scalar props by value, a passed array by the page's identity, and no identity that belongs to one render |
| MapWidget.RerunsExactlyOnPropChange | src/components/react/MapComponent.jsx:3-178 | with the default arrays shared by all renders, the dependency list changes exactly when the page changed a prop |
| MapWidget.FreshDefaultsRerun | src/components/react/MapComponent.jsx:3-178 | as written, two different renders see a changed dependency list exactly when a prop changed or the page omits `center` or `locations` |
| MapWidget.Rerender | src/components/react/MapComponent.jsx:72-178 | a re-render with an unchanged dependency list changes nothing; a changed one replaces the map with a fresh locked one that carries one marker per location of the current configuration, appends those markers to the marker list, keeps the lock flag, the error and the stray-map count, and ends loading, assuming the effect's load imports Leaflet and finds the container mounted |
| MapWidget.RerenderIsRun | src/components/react/MapComponent.jsx:72-178 | a re-render with a changed dependency list is exactly the event run of the effect's cleanup followed by a successful load into the mounted container |
| MapWidget.RerenderKeepsMarkers | src/components/react/MapComponent.jsx:152-176 | a re-creation never drops markers: the marker list before a re-render is a prefix of the one after it |
| MapWidget.UnlockUndoneByRerender | src/components/react/MapComponent.jsx:3-178 | as written, on a page that omits `center` or `locations`, the unlock click enables the gestures but its own re-render re-creates the map locked while the flag says unlocked |
| MapWidget.UnlockSticks | src/components/react/MapComponent.jsx:57-178 | with shared default arrays the unlock click's re-render leaves the map alone, gestures enabled and the flag in agreement |
| MapWidget.StaleMarkersInBounds | src/components/react/MapComponent.jsx:152-157 | a fitted view on re-creation covers the markers of every earlier map, followed by the new ones |

## Left out

- Leaflet and the Vimeo player SDK are external libraries and are not modelled: script and
  stylesheet injection, the dynamic `import()`, tile layers, icons, popup HTML markup and player
  construction. Leaflet's bounds and padding arithmetic is floating point. A fitted view
  records the positions and the padding percentage it is asked to fit.
- Coordinates are kept as the decimal text JavaScript prints for them. The number-to-text
  conversion is not modelled, so `MapWidget.DirectionsRoundTrip` assumes the printed latitude
  has no comma.
- `MapWidget.Strings` does not model language tags that name `Object.prototype` members
  (such as `constructor`), for which the lookup would find an inherited value. Every tag
  other than `es` and `en` falls back to Spanish.
- `VimeoPlayer.FormatTime` works on whole seconds only. The fractional seconds the SDK
  reports, `NaN` and negative inputs are not modelled, because they need floating point.
- `VimeoPlayer.ClickToggles` assumes the SDK answers a pause or play call with the matching
  event. The SDK's behaviour is not part of this model.
- The seek handler, the progress bar, volume and mute, fullscreen and orientation handling,
  and the mobile/resize detection are browser plumbing or floating point.
- The error link at `VimeoHeroPlayer.jsx:318` is modelled only for its path
  (`VimeoPlayer.ErrorLinkPath`): the parsed id cut at its first `?`, a different split from
  the `?h=` one the player uses, and `https://vimeo.com/undefined` when the parser gives null.
  The rest of the markup is view code.
- The timer itself (`setInterval` and its cadence) is left out. An auto-play tick is one
  `PartnersSlider.Tick`.
- JSX and CSS rendering is left out. `PartnersSlider.Render` keeps only the decisions: nothing,
  grid or carousel, the slide offset, the dots and the caption.
- `getTranslations` and `useTranslations` in `src/i18n/utils.ts` only look up the locale
  JSON files. Those files are not part of this model.
- `src/content/config.ts` is a declarative content schema and `astro.config.mjs` is build
  configuration. Neither has logic of its own. The routing they configure (no prefix for
  the default Spanish locale) is what `I18nUtils` assumes.
- Two concurrent loads of the map are not coalesced, and the model adds no such guard. Each
  settling load is an event of its own (`MapWidget.Run`).
- `MapWidget.Rerender` folds the effect's asynchronous load into the re-render and assumes it
  imports Leaflet into a mounted container. While the error panel shows, the container is
  unmounted (`MapComponent.jsx:222`); that path, and a load that fails, is covered only by
  `MapWidget.LoadFinished` as an event of its own.
- `PartnersSlider.Render`: in grid layout the list is a list of rows of partners. The model
  keeps only the number of rows, not the partners inside them.
- Leaflet refuses to create a second map in a container that already holds one. After a
  stray map, the next creation would therefore throw as well. This check belongs to the
  library and is not modelled.
- Default arguments: `I18nUtils.LocalizedUrl` always takes its locale, where
  `getLocalizedUrl` defaults it to Spanish. The carousel's `autoPlayInterval` (3000 ms) only
  sets the timer's cadence, which is left out. `gridLayout` (default `false`) is an explicit
  parameter of every carousel function. The map's scalar props are held with their defaults
  applied. Its array defaults are modelled by `MapWidget.Resolve` and the dependency list.
- `VimeoPlayer.Decimal`: prints every natural number in positional digits. JavaScript's
  `toString` switches to exponent form from 10^21, which is far beyond the minute count of
  any video.

## Findings

| source | as written | input that shows it | evidently intended | confidence | as-written member | corrected member |
|---|---|---|---|---|---|---|
| src/components/react/PartnersSlider.jsx:18 | the auto-play effect's dependency list reads `partners.length` while rendering, before the guard `!partners` at line 36 | `partners` absent (undefined or null), in either layout (`PartnersSlider.AbsentListCrashes`) | an absent list renders nothing, as the guard says | high; not executed | PartnersSlider.RenderAsWritten | PartnersSlider.Render |
| src/components/react/MapComponent.jsx:4-7 | `center` and `locations` default to array literals in the parameter list, and both are dependencies of the create/cleanup effect (line 178) | a page that omits `center`, then a click on the unlock button (`MapWidget.UnlockUndoneByRerender`) | the effect re-runs only when the page changes a prop, so an unlock sticks (`MapWidget.UnlockSticks`) | medium (depends on a page omitting the prop); not executed | MapWidget.DepsAsWritten | MapWidget.Deps |

=== FILE: i18n_utils.dfy ===
/** Path rewriting between the Spanish site, served from the root (`/`), and
    the English site, served under the `/en` prefix. Spanish is the default
    locale and its URLs carry no prefix. */
module I18nUtils {
  import opened Text

  datatype Locale = Es | En

  /** The prefix every English URL carries. */
  const EnPrefix: string := "/en"

  /** `path` as seen from `locale`: untouched for Spanish, prefixed for English. */
  function LocalizedUrl(path: string, locale: Locale): (r: string)
    ensures locale == Es ==> r == path
    ensures locale == En ==> StartsWith(r, EnPrefix) && r[|EnPrefix|..] == path
  {
    if locale == Es then path else EnPrefix + path
  }

  /** The other of the two locales. */
  function AlternateLocale(current: Locale): (r: Locale)
    ensures r != current
  {
    if current == Es then En else Es
  }

  /** The URL of the current page in the other language. From Spanish the
      `/en` prefix is added; from English a leading `/en` is stripped as a raw
      character prefix (not a path segment), and an empty result becomes `/`. */
  function AlternateUrl(currentPath: string, current: Locale): (r: string)
    ensures current == Es ==> r == LocalizedUrl(currentPath, AlternateLocale(current))
    ensures current == En && !StartsWith(currentPath, EnPrefix) ==>
              r == (if currentPath == "" then "/" else currentPath)
    ensures current == En && StartsWith(currentPath, EnPrefix) ==>
              r == (if |currentPath| == |EnPrefix| then "/" else currentPath[|EnPrefix|..])
    ensures r != ""
  {
    if current == Es then
      EnPrefix + currentPath
    else
      var stripped := if StartsWith(currentPath, EnPrefix) then currentPath[|EnPrefix|..] else currentPath;
      if stripped == "" then "/" else stripped
  }

  /** Switching locale twice comes back to the starting locale. */
  lemma AlternateLocaleInvolution(l: Locale)
    ensures AlternateLocale(AlternateLocale(l)) == l
    ensures AlternateLocale(l) != l
  {
  }

  /** Going to English and back restores every non-empty Spanish path; the
      empty path comes back as the root `/`. */
  lemma SpanishRoundTrip(p: string)
    ensures p != "" ==> AlternateUrl(AlternateUrl(p, Es), En) == p
    ensures p == "" ==> AlternateUrl(AlternateUrl(p, Es), En) == "/"
  {
    assert StartsWith(EnPrefix + p, EnPrefix);
    assert (EnPrefix + p)[|EnPrefix|..] == p;
  }

  /** Going to Spanish and back restores every English path that has
      something after its `/en` prefix. */
  lemma EnglishRoundTrip(p: string)
    requires StartsWith(p, EnPrefix) && |p| > |EnPrefix|
    ensures AlternateUrl(AlternateUrl(p, En), Es) == p
  {
    assert EnPrefix + p[|EnPrefix|..] == p[..|EnPrefix|] + p[|EnPrefix|..];
  }

  /** The strip does not respect path segments: `/enlace` (a Spanish page
      whose name happens to begin with "en") loses its first three characters. */
  lemma StripIgnoresSegments()
    ensures AlternateUrl("/enlace", En) == "lace"
    ensures AlternateUrl("/en", En) == "/"
    ensures AlternateUrl("/en/contacto", En) == "/contacto"
  {
    assert StartsWith("/enlace", EnPrefix);
    assert StartsWith("/en/contacto", EnPrefix);
  }
}

=== FILE: map_widget.dfy ===
/** The embeddable map widget: the UI strings per language, the map options
    chosen at creation, the lock/unlock gesture toggle, and the lifecycle of
    the single map instance with its markers, popups, directions links and
    view. The mapping library itself (tiles, projection, bounds arithmetic)
    is outside the model: a fitted view records the marker positions and the
    padding it was asked to fit, not the rectangle the library computes. */
module MapWidget {
  import opened Optional
  import opened Text

  // ---------------------------------------------------------------------
  // UI strings

  /** The ten strings every language bundle provides. */
  const BundleKeys: set<string> := {
    "title", "loading", "error", "tryAgain", "unlockMap", "lockMap",
    "mapUnlockedTitle", "mapLockedTitle", "scrollLockMessage", "getDirections"
  }

  const EsBundle: map<string, string> := map[
    "title" := "Ubicación",
    "loading" := "Cargando mapa...",
    "error" := "Error al cargar el mapa",
    "tryAgain" := "Intentar de nuevo",
    "unlockMap" := "🔓 Desbloquear mapa",
    "lockMap" := "🔒 Bloquear mapa",
    "mapUnlockedTitle" := "Mapa desbloqueado - puedes hacer zoom y mover el mapa",
    "mapLockedTitle" := "Mapa bloqueado - haz clic para interactuar",
    "scrollLockMessage" := "Haz clic en 'Desbloquear mapa' para interactuar",
    "getDirections" := "Cómo llegar"
  ]

  const EnBundle: map<string, string> := map[
    "title" := "Location",
    "loading" := "Loading map...",
    "error" := "Error loading map",
    "tryAgain" := "Try again",
    "unlockMap" := "🔓 Unlock map",
    "lockMap" := "🔒 Lock map",
    "mapUnlockedTitle" := "Map unlocked - you can zoom and move the map",
    "mapLockedTitle" := "Map locked - click to interact",
    "scrollLockMessage" := "Click 'Unlock map' to interact",
    "getDirections" := "Get directions"
  ]

  /** The bundles by language tag. */
  const Content: map<string, map<string, string>> := map["es" := EsBundle, "en" := EnBundle]

  /** `content[language] || content.es`: the bundle for the tag, Spanish for
      any tag without one. */
  function Strings(language: string): (t: map<string, string>)
    ensures t.Keys == BundleKeys
    ensures language in Content ==> t == Content[language]
    ensures language !in Content ==> t == Content["es"]
  {
    BundlesAgreeOnKeys();
    if language in Content then Content[language] else Content["es"]
  }

  /** Both bundles define exactly the same ten keys. */
  lemma BundlesAgreeOnKeys()
    ensures EsBundle.Keys == BundleKeys && EnBundle.Keys == BundleKeys
    ensures |BundleKeys| == 10
  {
    SpanishKeys();
    EnglishKeys();
    TenKeys();
  }

  lemma SpanishKeys() ensures EsBundle.Keys == BundleKeys {}
  lemma EnglishKeys() ensures EnBundle.Keys == BundleKeys {}
  lemma TenKeys() ensures |BundleKeys| == 10 {}

  /** An unknown tag reads exactly like Spanish, and the two known tags read
      differently. */
  lemma UnknownLanguageFallsBack(tag: string)
    requires tag != "es" && tag != "en"
    ensures Strings(tag) == Strings("es")
    ensures Strings("en") != Strings("es")
  {
    FallbackIsSpanish(tag);
    TitlesDiffer();
  }

  lemma FallbackIsSpanish(tag: string)
    requires tag != "es" && tag != "en"
    ensures Strings(tag) == Strings("es")
  {
    assert tag !in Content;
  }

  lemma TitlesDiffer()
    ensures Strings("en")["title"] != Strings("es")["title"]
  {
    assert Strings("en") == EnBundle && Strings("es") == EsBundle;
    assert EnBundle["title"] == "Location" && EsBundle["title"] == "Ubicación";
  }

  // ---------------------------------------------------------------------
  // Locations, markers and popups

  /** A coordinate as the decimal text JavaScript prints for it. */
  datatype LatLng = LatLng(lat: string, lng: string)

  /** One office location from the page content; an empty name or
      description counts as absent. */
  datatype Location = Location(name: string, description: string, coordinates: LatLng)

  datatype Link = Link(href: string, text: string)

  /** An info popup: heading and paragraph when present, and the directions link. */
  datatype Popup = Popup(heading: Option<string>, body: Option<string>, directions: Link)

  datatype Marker = Marker(position: LatLng, primary: bool, alt: string, popup: Option<Popup>)

  const DirectionsPrefix: string := "https://maps.google.com/maps?daddr="

  /** The directions deep link for a coordinate. */
  function DirectionsUrl(c: LatLng): (url: string)
    ensures StartsWith(url, DirectionsPrefix)
  {
    DirectionsPrefix + c.lat + "," + c.lng
  }

  /** Reads a directions link back into the coordinate it points at. */
  function ParseDirectionsUrl(url: string): Option<LatLng> {
    if !StartsWith(url, DirectionsPrefix) then None
    else
      var rest := url[|DirectionsPrefix|..];
      match IndexOf(rest, ",", 0)
      case None => None
      case Some(i) => Some(LatLng(rest[..i], rest[i + 1..]))
  }

  /** The directions link names the destination exactly: a latitude printed
      by JavaScript never contains a comma, so the link parses back. */
  lemma DirectionsRoundTrip(c: LatLng)
    requires forall i :: 0 <= i < |c.lat| ==> c.lat[i] != ','
    ensures ParseDirectionsUrl(DirectionsUrl(c)) == Some(c)
  {
    var url := DirectionsUrl(c);
    var rest := url[|DirectionsPrefix|..];
    assert rest == c.lat + "," + c.lng;
    forall j | 0 <= j < |c.lat|
      ensures !OccursAt(rest, ",", j)
    {
      assert rest[j..j + 1][0] == c.lat[j];
    }
    assert OccursAt(rest, ",", |c.lat|);
    assert IndexOf(rest, ",", 0) == Some(|c.lat|);
    assert rest[..|c.lat|] == c.lat;
    assert rest[|c.lat| + 1..] == c.lng;
  }

  /** A location gets a popup when it has a name or a description. */
  predicate HasPopup(loc: Location) {
    loc.name != "" || loc.description != ""
  }

  function PopupFor(loc: Location, directionsLabel: string): Popup {
    Popup(if loc.name != "" then Some(loc.name) else None,
          if loc.description != "" then Some(loc.description) else None,
          Link(DirectionsUrl(loc.coordinates), directionsLabel))
  }

  /** The marker for the location at `index`; only index 0 is primary. */
  function MarkerFor(loc: Location, index: nat, directionsLabel: string): Marker {
    Marker(loc.coordinates, index == 0, loc.name,
           if HasPopup(loc) then Some(PopupFor(loc, directionsLabel)) else None)
  }

  /** The markers created for `locations`, in input order. */
  function PlaceMarkers(locations: seq<Location>, directionsLabel: string): (ms: seq<Marker>)
    ensures |ms| == |locations|
    ensures forall i :: 0 <= i < |ms| ==>
              ms[i].position == locations[i].coordinates && ms[i].alt == locations[i].name
    ensures forall i :: 0 <= i < |ms| ==> (ms[i].primary <==> i == 0)
    ensures forall i :: 0 <= i < |ms| ==> (ms[i].popup.Some? <==> HasPopup(locations[i]))
    ensures forall i :: 0 <= i < |ms| && ms[i].popup.Some? ==>
              ms[i].popup.value.directions == Link(DirectionsUrl(locations[i].coordinates), directionsLabel)
              && ms[i].popup.value.heading == (if locations[i].name != "" then Some(locations[i].name) else None)
              && ms[i].popup.value.body == (if locations[i].description != "" then Some(locations[i].description) else None)
  {
    if |locations| == 0 then []
    else
      var n := |locations| - 1;
      PlaceMarkers(locations[..n], directionsLabel) + [MarkerFor(locations[n], n, directionsLabel)]
  }

  /** Exactly one marker is primary when there are locations, none otherwise. */
  lemma OnePrimary(locations: seq<Location>, directionsLabel: string)
    ensures var ms := PlaceMarkers(locations, directionsLabel);
            |locations| > 0 ==> ms[0].primary && forall i :: 1 <= i < |ms| ==> !ms[i].primary
  {
  }

  /** On the Spanish page, a named location without description gets the
      primary marker and a popup with its name as heading, no paragraph, and
      a "Cómo llegar" link to its coordinates. */
  lemma NamedOfficePopup(name: string, c: LatLng)
    requires name != ""
    ensures var m := PlaceMarkers([Location(name, "", c)], Strings("es")["getDirections"])[0];
            m.primary && m.alt == name && m.position == c &&
            m.popup == Some(Popup(Some(name), None, Link(DirectionsUrl(c), "Cómo llegar")))
  {
    var directionsLabel := Strings("es")["getDirections"];
    SpanishDirections();
    SingleMarker(Location(name, "", c), directionsLabel);
  }

  lemma SpanishDirections()
    ensures Strings("es")["getDirections"] == "Cómo llegar"
  {
    assert Strings("es") == EsBundle;
  }

  /** A single location yields the marker built for index 0. */
  lemma SingleMarker(loc: Location, directionsLabel: string)
    ensures PlaceMarkers([loc], directionsLabel) == [MarkerFor(loc, 0, directionsLabel)]
  {
    assert [loc][..0] == [];
  }

  // ---------------------------------------------------------------------
  // The map instance

  /** The handler and control switches passed to the library at creation. */
  datatype MapOptions = MapOptions(
    scrollWheelZoom: bool, dragging: bool, touchZoom: bool, doubleClickZoom: bool,
    boxZoom: bool, keyboard: bool, zoomControl: bool, attributionControl: bool)

  /** Creation options: every gesture locked except double-click zoom, the
      zoom buttons only with controls shown, no attribution control. */
  function InitialOptions(showControls: bool): (o: MapOptions)
    ensures !o.scrollWheelZoom && !o.dragging && !o.touchZoom
    ensures !o.boxZoom && !o.keyboard && !o.attributionControl
    ensures o.doubleClickZoom
    ensures o.zoomControl <==> showControls
  {
    MapOptions(false, false, false, true, false, false, showControls, false)
  }

  /** Where the map looks: the configured center and zoom, or the bounds of
      a set of marker positions grown by a padding (in percent). */
  datatype View =
    | ConfiguredView(center: LatLng, zoom: int)
    | FittedView(positions: seq<LatLng>, paddingPercent: nat)

  /** What the host page passes in; a change of any field re-runs the
      create/cleanup effect. */
  datatype Config = Config(
    center: LatLng, zoom: int, locations: seq<Location>, language: string, showControls: bool)

  datatype MapInstance = MapInstance(options: MapOptions, view: View, markers: seq<Marker>)

  /** The component's state: the instance slot, the marker list reference,
      the lock flag and the loading/error display. `strayMaps` counts the maps
      the library created that the slot never held, so that no cleanup
      removes them. */
  datatype Widget = Widget(
    mapInstance: Option<MapInstance>,
    markersRef: seq<Marker>,
    scrollZoomEnabled: bool,
    isLoading: bool,
    error: Option<string>,
    strayMaps: nat)

  /** A freshly mounted widget: no map, no markers, locked, loading. */
  const Mounted: Widget := Widget(None, [], false, true, None, 0)

  /** The lock flag and the three gestures it governs agree. */
  predicate LockConsistent(w: Widget) {
    w.mapInstance.Some? ==>
      var o := w.mapInstance.value.options;
      o.scrollWheelZoom == w.scrollZoomEnabled && o.dragging == w.scrollZoomEnabled &&
      o.touchZoom == w.scrollZoomEnabled
  }

  function SetGestures(o: MapOptions, on: bool): MapOptions {
    o.(scrollWheelZoom := on, dragging := on, touchZoom := on)
  }

  /** `toggleScrollZoom`: without a map nothing happens, not even the flag;
      with one, the flag flips and scroll-wheel zoom, dragging and touch zoom
      all follow the new flag. Nothing else changes. */
  function ToggleScrollZoom(w: Widget): (r: Widget)
    ensures w.mapInstance.None? ==> r == w
    ensures w.mapInstance.Some? ==>
              r.scrollZoomEnabled == !w.scrollZoomEnabled && LockConsistent(r) &&
              r.mapInstance.Some? &&
              r.mapInstance.value.view == w.mapInstance.value.view &&
              r.mapInstance.value.markers == w.mapInstance.value.markers
    ensures w.mapInstance.Some? ==>
              var o, o' := w.mapInstance.value.options, r.mapInstance.value.options;
              o'.doubleClickZoom == o.doubleClickZoom && o'.boxZoom == o.boxZoom &&
              o'.keyboard == o.keyboard && o'.zoomControl == o.zoomControl &&
              o'.attributionControl == o.attributionControl
    ensures r.markersRef == w.markersRef && r.isLoading == w.isLoading && r.error == w.error
    ensures r.strayMaps == w.strayMaps
  {
    match w.mapInstance
    case None => w
    case Some(m) =>
      var o := if w.scrollZoomEnabled then SetGestures(m.options, false) else SetGestures(m.options, true);
      w.(mapInstance := Some(m.(options := o)), scrollZoomEnabled := !w.scrollZoomEnabled)
  }

  /** The effect's cleanup (unmount or reconfiguration): the instance is
      removed and its slot emptied. The marker list is left as it is. */
  function Cleanup(w: Widget): (r: Widget)
    ensures r.mapInstance.None?
    ensures r.markersRef == w.markersRef && r.scrollZoomEnabled == w.scrollZoomEnabled
    ensures r.isLoading == w.isLoading && r.error == w.error && r.strayMaps == w.strayMaps
  {
    if w.mapInstance.Some? then w.(mapInstance := None) else w
  }

  /** How the `try` block of `loadLeaflet` ended. `ImportFailed`: the
      import rejected, or creating the map threw before a map existed.
      `Imported`: nothing threw. `ThrewAfter(pushed)`: a library call threw
      after the map was created (adding a marker, binding a popup or fitting
      the bounds), once `pushed` markers had been pushed. */
  datatype LoadOutcome = ImportFailed | Imported | ThrewAfter(pushed: nat)

  /** The markers for `cfg`, labelled in its language. */
  function MarkersFor(cfg: Config): seq<Marker> {
    PlaceMarkers(cfg.locations, Strings(cfg.language)["getDirections"])
  }

  /** Creation of the map for `cfg`: fresh options, one marker per location
      appended to the marker list, and the view fitted to the whole marker
      list when there is more than one location. */
  function CreateMap(w: Widget, cfg: Config): Widget {
    var placed := MarkersFor(cfg);
    var all := w.markersRef + placed;
    var view := if |cfg.locations| > 1 then FittedView(Positions(all), 10)
                else ConfiguredView(cfg.center, cfg.zoom);
    w.(mapInstance := Some(MapInstance(InitialOptions(cfg.showControls), view, placed)),
       markersRef := all,
       isLoading := false)
  }

  function Positions(ms: seq<Marker>): (ps: seq<LatLng>)
    ensures |ps| == |ms| && forall i :: 0 <= i < |ms| ==> ps[i] == ms[i].position
  {
    seq(|ms|, i requires 0 <= i < |ms| => ms[i].position)
  }

  /** The `catch` block: the localized error is shown and loading ends. */
  function ShowError(w: Widget, cfg: Config): Widget {
    w.(error := Some(Strings(cfg.language)["error"]), isLoading := false)
  }

  /** The continuation of `loadLeaflet` once the import has settled. A failed
      import shows the localized error; a successful one creates the map only
      when the container is mounted and no map is live. A throw after the
      map was created also shows the error, keeps the markers already
      pushed, and leaves the new map outside the slot. */
  function LoadFinished(w: Widget, cfg: Config, containerMounted: bool, outcome: LoadOutcome): (r: Widget)
    ensures outcome == ImportFailed ==>
              r == w.(error := Some(Strings(cfg.language)["error"]), isLoading := false)
    ensures !outcome.ImportFailed? && (!containerMounted || w.mapInstance.Some?) ==> r == w
    ensures outcome == Imported && containerMounted && w.mapInstance.None? ==>
              r.mapInstance.Some? && !r.isLoading && r.error == w.error &&
              r.scrollZoomEnabled == w.scrollZoomEnabled && r.strayMaps == w.strayMaps &&
              r.mapInstance.value.markers == PlaceMarkers(cfg.locations, Strings(cfg.language)["getDirections"]) &&
              |r.mapInstance.value.markers| == |cfg.locations| &&
              r.markersRef == w.markersRef + r.mapInstance.value.markers &&
              r.mapInstance.value.options == InitialOptions(cfg.showControls)
    ensures outcome.ThrewAfter? && containerMounted && w.mapInstance.None? ==>
              var k := if outcome.pushed < |cfg.locations| then outcome.pushed else |cfg.locations|;
              r.mapInstance.None? && !r.isLoading && r.error == Some(Strings(cfg.language)["error"]) &&
              r.scrollZoomEnabled == w.scrollZoomEnabled && r.strayMaps == w.strayMaps + 1 &&
              r.markersRef == w.markersRef + PlaceMarkers(cfg.locations, Strings(cfg.language)["getDirections"])[..k]
  {
    match outcome
    case ImportFailed => ShowError(w, cfg)
    case Imported =>
      if containerMounted && w.mapInstance.None? then CreateMap(w, cfg) else w
    case ThrewAfter(pushed) =>
      if containerMounted && w.mapInstance.None? then
        var k := if pushed < |cfg.locations| then pushed else |cfg.locations|;
        ShowError(w.(markersRef := w.markersRef + MarkersFor(cfg)[..k], strayMaps := w.strayMaps + 1), cfg)
      else w
  }

  /** A throw after creation leaves a map that nothing removes: the slot is
      empty, so the next cleanup leaves the stray map in place, and the error
      stays on screen. */
  lemma ThrowStrandsMap(w: Widget, cfg: Config, pushed: nat)
    requires w.mapInstance.None?
    ensures var r := LoadFinished(w, cfg, true, ThrewAfter(pushed));
            r.error.Some? && r.mapInstance.None? && r.strayMaps == w.strayMaps + 1 &&
            Cleanup(r) == r && |w.markersRef| <= |r.markersRef|
  {
  }

  /** Bounds fitting replaces the configured view exactly when there is more
      than one location; it then covers every marker in the list, padded by 10%. */
  lemma FitBoundsIffSeveral(w: Widget, cfg: Config)
    requires w.mapInstance.None?
    ensures var r := LoadFinished(w, cfg, true, Imported);
            var v := r.mapInstance.value.view;
            (v.FittedView? <==> |cfg.locations| > 1) &&
            (v.FittedView? ==> v.positions == Positions(r.markersRef) && v.paddingPercent == 10) &&
            (!v.FittedView? ==> v == ConfiguredView(cfg.center, cfg.zoom))
  {
  }

  // ---------------------------------------------------------------------
  // Lock invariant

  /** The mounted widget is locked, and so is every freshly created map. */
  lemma MountedIsLocked(cfg: Config)
    ensures LockConsistent(Mounted) && !Mounted.scrollZoomEnabled
    ensures LockConsistent(LoadFinished(Mounted, cfg, true, Imported))
  {
  }

  /** Toggling twice restores the flag and the handlers, provided they agreed
      to begin with. */
  lemma ToggleTwice(w: Widget)
    requires LockConsistent(w)
    ensures ToggleScrollZoom(ToggleScrollZoom(w)) == w
  {
  }

  /** The lock flag survives re-creation: after unlocking, a cleanup and a new
      map, the flag still says unlocked while the new map's gestures are all
      disabled, so flag and handlers disagree. */
  lemma UnlockSurvivesRecreation(w: Widget, cfg: Config)
    requires w.scrollZoomEnabled
    ensures var r := LoadFinished(Cleanup(w), cfg, true, Imported);
            r.scrollZoomEnabled && !r.mapInstance.value.options.scrollWheelZoom && !LockConsistent(r)
  {
  }

  // ---------------------------------------------------------------------
  // Re-rendering and the effect's dependency list

  /** An array prop as React sees it. An array the host page passes keeps
      its identity from one render to the next; an omitted one is replaced by
      its default. */
  datatype ArrayProp<T> = Passed(identity: nat, value: T) | Omitted

  /** The props that feed the create/cleanup effect. The scalar props are
      held with their defaults already applied: a default string, number or
      boolean compares equal from render to render. */
  datatype Props = Props(
    center: ArrayProp<LatLng>, zoom: int, locations: ArrayProp<seq<Location>>,
    language: string, showControls: bool)

  /** The default center, as JavaScript prints `[40.9505, -5.6300]`. */
  const DefaultCenter: LatLng := LatLng("40.9505", "-5.63")

  /** The configuration the effect works with once defaults are applied. */
  function Resolve(p: Props): (cfg: Config)
    ensures cfg.center == (if p.center.Passed? then p.center.value else DefaultCenter)
    ensures cfg.locations == (if p.locations.Passed? then p.locations.value else [])
    ensures cfg.zoom == p.zoom && cfg.language == p.language && cfg.showControls == p.showControls
  {
    Config(if p.center.Passed? then p.center.value else DefaultCenter, p.zoom,
           if p.locations.Passed? then p.locations.value else [],
           p.language, p.showControls)
  }

  /** The identity of an array in the dependency list: one the page passed,
      a default array literal evaluated during render number `render`, or a
      default shared by all renders. */
  datatype Identity = PassedArray(id: nat) | DefaultOfRender(render: nat) | SharedDefault

  /** `[center, zoom, locations, language, showControls]` as React compares
      it with `Object.is`: arrays by identity, the rest by value. */
  datatype DepList = DepList(
    center: Identity, zoom: int, locations: Identity, language: string, showControls: bool)

  function IdentityAsWritten<T>(a: ArrayProp<T>, render: nat): Identity {
    if a.Passed? then PassedArray(a.identity) else DefaultOfRender(render)
  }

  /** The dependency list as the component is written: the defaults
      `center = [...]` and `locations = []` sit in the parameter list, so
      every render that omits them makes new arrays. */
  function DepsAsWritten(p: Props, render: nat): (d: DepList)
    ensures d.zoom == p.zoom && d.language == p.language && d.showControls == p.showControls
    ensures p.center.Passed? ==> d.center == PassedArray(p.center.identity)
    ensures p.locations.Passed? ==> d.locations == PassedArray(p.locations.identity)
    ensures p.center.Omitted? ==> d.center == DefaultOfRender(render)
    ensures p.locations.Omitted? ==> d.locations == DefaultOfRender(render)
  {
    DepList(IdentityAsWritten(p.center, render), p.zoom,
            IdentityAsWritten(p.locations, render), p.language, p.showControls)
  }

  function IdentityShared<T>(a: ArrayProp<T>): Identity {
    if a.Passed? then PassedArray(a.identity) else SharedDefault
  }

  /** The dependency list with the default arrays hoisted to constants of
      the module, so that every render that omits them sees the same arrays. */
  function Deps(p: Props, render: nat): (d: DepList)
    ensures d.zoom == p.zoom && d.language == p.language && d.showControls == p.showControls
    ensures p.center.Passed? ==> d.center == PassedArray(p.center.identity)
    ensures p.locations.Passed? ==> d.locations == PassedArray(p.locations.identity)
    ensures !d.center.DefaultOfRender? && !d.locations.DefaultOfRender?
  {
    DepList(IdentityShared(p.center), p.zoom, IdentityShared(p.locations), p.language, p.showControls)
  }

  /** Whether an array prop changed between two renders of the page. */
  predicate ArrayChanged<T>(a: ArrayProp<T>, b: ArrayProp<T>) {
    a.Omitted? != b.Omitted? || (a.Passed? && b.Passed? && a.identity != b.identity)
  }

  /** Whether the host page changed any prop the effect depends on. */
  predicate PropsChanged(p: Props, q: Props) {
    ArrayChanged(p.center, q.center) || p.zoom != q.zoom ||
    ArrayChanged(p.locations, q.locations) || p.language != q.language ||
    p.showControls != q.showControls
  }

  /** With hoisted defaults the effect re-runs exactly when the page changed
      a prop, whatever the renders in between. */
  lemma RerunsExactlyOnPropChange(p: Props, q: Props, r1: nat, r2: nat)
    ensures Deps(p, r1) != Deps(q, r2) <==> PropsChanged(p, q)
  {
  }

  /** As written, two different renders of a page that omits `center` or
      `locations` always see a changed dependency list, even when no prop
      changed. */
  lemma FreshDefaultsRerun(p: Props, q: Props, r1: nat, r2: nat)
    requires r1 != r2
    ensures DepsAsWritten(p, r1) != DepsAsWritten(q, r2) <==>
            PropsChanged(p, q) || p.center.Omitted? || p.locations.Omitted?
  {
  }

  /** A re-render after a state change. When the dependency list changed,
      the effect's cleanup removes the live map and its next run creates a
      new one for the current configuration; otherwise nothing happens. The
      effect's asynchronous load is folded into the re-render and assumed to
      import Leaflet and to find the container mounted; the container is in
      fact unmounted while the error panel shows, and a failed or late load
      is modelled only by `LoadFinished` as an event of its own. */
  function Rerender(w: Widget, before: DepList, after: DepList, cfg: Config): (r: Widget)
    ensures before == after ==> r == w
    ensures before != after ==>
              r.mapInstance.Some? && r.mapInstance.value.options == InitialOptions(cfg.showControls) &&
              r.scrollZoomEnabled == w.scrollZoomEnabled
    ensures before != after ==>
              r.mapInstance.value.markers == MarkersFor(cfg) &&
              r.markersRef == w.markersRef + MarkersFor(cfg) &&
              r.error == w.error && r.strayMaps == w.strayMaps && !r.isLoading
  {
    if before == after then w else LoadFinished(Cleanup(w), cfg, true, Imported)
  }

  /** A re-render with a changed dependency list is the event run of the
      effect's cleanup followed by a successful load into the mounted
      container, so every property of event runs (`MarkersOnlyGrow`) covers
      it. */
  lemma RerenderIsRun(w: Widget, before: DepList, after: DepList, cfg: Config)
    requires before != after
    ensures Rerender(w, before, after, cfg) == Run(w, [EffectCleanup, LoadSettled(cfg, true, Imported)])
  {
    var es := [EffectCleanup, LoadSettled(cfg, true, Imported)];
    assert es[1..] == [LoadSettled(cfg, true, Imported)];
    assert es[1..][1..] == [];
    assert Run(w, es) == Run(Cleanup(w), es[1..]);
    assert Run(Cleanup(w), es[1..]) == LoadFinished(Cleanup(w), cfg, true, Imported);
  }

  /** Re-creations never drop markers: the marker list before a re-render is
      a prefix of the one after it. */
  lemma RerenderKeepsMarkers(w: Widget, before: DepList, after: DepList, cfg: Config)
    ensures var r := Rerender(w, before, after, cfg);
            |w.markersRef| <= |r.markersRef| && r.markersRef[..|w.markersRef|] == w.markersRef
  {
    if before != after {
      RerenderIsRun(w, before, after, cfg);
      MarkersOnlyGrow(w, [EffectCleanup, LoadSettled(cfg, true, Imported)]);
    }
  }

  /** As written, unlocking never sticks on a page that omits `center` or
      `locations`: the click enables the gestures, its own re-render changes
      the dependency list, and the re-created map has them disabled again
      while the flag says unlocked. */
  lemma UnlockUndoneByRerender(w: Widget, p: Props, render: nat)
    requires p.center.Omitted? || p.locations.Omitted?
    requires w.mapInstance.Some? && LockConsistent(w) && !w.scrollZoomEnabled
    ensures var clicked := ToggleScrollZoom(w);
            var r := Rerender(clicked, DepsAsWritten(p, render), DepsAsWritten(p, render + 1), Resolve(p));
            clicked.mapInstance.value.options.scrollWheelZoom &&
            r.scrollZoomEnabled && !r.mapInstance.value.options.scrollWheelZoom && !LockConsistent(r)
  {
    FreshDefaultsRerun(p, p, render, render + 1);
  }

  /** With hoisted defaults, unlocking sticks: the click's re-render leaves
      the map alone, with its gestures enabled and the flag in agreement. */
  lemma UnlockSticks(w: Widget, p: Props, render: nat)
    requires w.mapInstance.Some? && LockConsistent(w) && !w.scrollZoomEnabled
    ensures var clicked := ToggleScrollZoom(w);
            var r := Rerender(clicked, Deps(p, render), Deps(p, render + 1), Resolve(p));
            r == clicked && r.scrollZoomEnabled && r.mapInstance.value.options.scrollWheelZoom &&
            LockConsistent(r)
  {
    RerunsExactlyOnPropChange(p, p, render, render + 1);
  }

  // ---------------------------------------------------------------------
  // Event runs

  /** Everything that can happen to the widget: a click on the lock button,
      the effect's cleanup, and the settling of an import started by an
      earlier run of the effect. */
  datatype Event =
    | ToggleClicked
    | EffectCleanup
    | LoadSettled(cfg: Config, containerMounted: bool, outcome: LoadOutcome)

  function Step(w: Widget, e: Event): Widget {
    match e
    case ToggleClicked => ToggleScrollZoom(w)
    case EffectCleanup => Cleanup(w)
    case LoadSettled(cfg, mounted, outcome) => LoadFinished(w, cfg, mounted, outcome)
  }

  function Run(w: Widget, events: seq<Event>): Widget
    decreases |events|
  {
    if |events| == 0 then w else Run(Step(w, events[0]), events[1..])
  }

  /** The marker list is only ever appended to: whatever it held before any
      run of events is still its prefix afterwards. */
  lemma {:induction false} MarkersOnlyGrow(w: Widget, events: seq<Event>)
    ensures var r := Run(w, events);
            |w.markersRef| <= |r.markersRef| && r.markersRef[..|w.markersRef|] == w.markersRef
    decreases |events|
  {
    if |events| > 0 {
      var w' := Step(w, events[0]);
      StepGrows(w, events[0]);
      MarkersOnlyGrow(w', events[1..]);
      var r := Run(w', events[1..]);
      assert r.markersRef[..|w.markersRef|] == r.markersRef[..|w'.markersRef|][..|w.markersRef|];
    }
  }

  /** One event keeps the marker list as a prefix of the new one. */
  lemma StepGrows(w: Widget, e: Event)
    ensures var r := Step(w, e);
            |w.markersRef| <= |r.markersRef| && r.markersRef[..|w.markersRef|] == w.markersRef
  {
    var r := Step(w, e);
    if e.LoadSettled? {
      var creates := e.containerMounted && w.mapInstance.None?;
      var n := |e.cfg.locations|;
      var extra: seq<Marker> :=
        if !creates || e.outcome.ImportFailed? then []
        else if e.outcome.Imported? then MarkersFor(e.cfg)
        else MarkersFor(e.cfg)[..if e.outcome.pushed < n then e.outcome.pushed else n];
      assert r.markersRef == w.markersRef + extra;
      assert (w.markersRef + extra)[..|w.markersRef|] == w.markersRef;
    }
  }

  /** A second map fitted to several locations also covers the markers of
      every earlier map, because the list is never cleared. */
  lemma StaleMarkersInBounds(w: Widget, cfg: Config)
    requires w.mapInstance.None? && |cfg.locations| > 1
    ensures var v := LoadFinished(w, cfg, true, Imported).mapInstance.value.view;
            v.FittedView? && |v.positions| == |w.markersRef| + |cfg.locations| &&
            v.positions[..|w.markersRef|] == Positions(w.markersRef)
  {
    var r := LoadFinished(w, cfg, true, Imported);
    FitBoundsIffSeveral(w, cfg);
    PositionsOfAppend(w.markersRef, r.mapInstance.value.markers);
  }

  /** The positions of an appended list start with the positions of its prefix. */
  lemma PositionsOfAppend(a: seq<Marker>, b: seq<Marker>)
    ensures |Positions(a + b)| == |a| + |b|
    ensures Positions(a + b)[..|a|] == Positions(a)
  {
    assert forall i :: 0 <= i < |a| ==> Positions(a + b)[i] == (a + b)[i].position == a[i].position;
  }

  /** Clicks while no map is live (loading, failed or unmounted) change nothing. */
  lemma ToggleWithoutMap(w: Widget, k: nat)
    requires w.mapInstance.None?
    ensures Run(w, seq(k, _ => ToggleClicked)) == w
  {
    if k > 0 {
      assert seq(k, _ => ToggleClicked)[1..] == seq(k - 1, _ => ToggleClicked);
      ToggleWithoutMap(w, k - 1);
    }
  }
}

=== FILE: optional.dfy ===
/** The absent-or-present value that stands in for JavaScript's `null` / `undefined`. */
module Optional {

  datatype Option<+T> = None | Some(value: T) {

    /** The value, or `default` when absent. */
    function GetOr(default: T): T {
      match this
      case Some(v) => v
      case None => default
    }
  }
}

=== FILE: partners_slider.dfy ===
/** The partner-logo carousel: a current slide index over `n` partners, an
    auto-play switch, wrap-around navigation and the label shown under the
    current logo. Indices are JavaScript numbers, modelled as `int` so that
    the arithmetic is total; the properties hold for `0 <= i < n`. */
module PartnersSlider {
  import opened Optional

  /** One partner logo. `name` is optional; an empty name counts as absent,
      as it does for JavaScript's `||`. */
  datatype Partner = Partner(src: string, alt: string, name: Option<string>)

  /** The component's state: which slide is shown and whether auto-play runs. */
  datatype Slider = Slider(currentIndex: int, isPlaying: bool)

  /** A freshly mounted slider shows the first partner and auto-plays. */
  const Initial: Slider := Slider(0, true)

  predicate InRange(i: int, n: int) {
    0 <= i < n
  }

  /** The index after `i`, wrapping from the last slide to the first. */
  function Next(i: int, n: int): (r: int)
    ensures InRange(i, n) ==> InRange(r, n) && r == (i + 1) % n
  {
    if i == n - 1 then 0 else i + 1
  }

  /** The index before `i`, wrapping from the first slide to the last. */
  function Previous(i: int, n: int): (r: int)
    ensures InRange(i, n) ==> InRange(r, n) && r == (i + n - 1) % n
  {
    if i == 0 then n - 1 else i - 1
  }

  function GoToNext(s: Slider, n: int): (r: Slider)
    ensures r.isPlaying == s.isPlaying
    ensures InRange(s.currentIndex, n) ==> r.currentIndex == (s.currentIndex + 1) % n
  {
    s.(currentIndex := Next(s.currentIndex, n))
  }

  function GoToPrevious(s: Slider, n: int): (r: Slider)
    ensures r.isPlaying == s.isPlaying
    ensures InRange(s.currentIndex, n) ==> r.currentIndex == (s.currentIndex + n - 1) % n
  {
    s.(currentIndex := Previous(s.currentIndex, n))
  }

  /** Clicking the dot of slide `index`. */
  function GoToSlide(s: Slider, index: int): (r: Slider)
    ensures r.isPlaying == s.isPlaying && r.currentIndex == index
  {
    s.(currentIndex := index)
  }

  /** The play/pause button flips auto-play and leaves the slide alone. */
  function TogglePlayPause(s: Slider): (r: Slider)
    ensures r.isPlaying != s.isPlaying
    ensures r.currentIndex == s.currentIndex
  {
    s.(isPlaying := !s.isPlaying)
  }

  /** Whether the auto-play interval is armed at all. */
  predicate AutoPlayArmed(gridLayout: bool, isPlaying: bool, n: int) {
    !gridLayout && isPlaying && n > 1
  }

  /** One firing of the auto-play interval; when the interval is not armed
      nothing happens. */
  function Tick(s: Slider, n: int, gridLayout: bool): (r: Slider)
    ensures !AutoPlayArmed(gridLayout, s.isPlaying, n) ==> r == s
    ensures AutoPlayArmed(gridLayout, s.isPlaying, n) ==> r == GoToNext(s, n)
  {
    if !AutoPlayArmed(gridLayout, s.isPlaying, n) then s
    else s.(currentIndex := if s.currentIndex == n - 1 then 0 else s.currentIndex + 1)
  }

  /** The text under the current logo: the partner's name when it is present
      and non-empty, otherwise its alt text; nothing for an index that names
      no partner. */
  function Label(partners: seq<Partner>, i: int): (r: string)
    ensures !InRange(i, |partners|) ==> r == ""
    ensures InRange(i, |partners|) && partners[i].name.GetOr("") != "" ==> r == partners[i].name.value
    ensures InRange(i, |partners|) && partners[i].name.GetOr("") == "" ==> r == partners[i].alt
  {
    if !InRange(i, |partners|) then ""
    else
      var name := partners[i].name.GetOr("");
      if name != "" then name else partners[i].alt
  }

  /** What the component renders. `Crashed` is a render that throws. */
  datatype View =
    | Nothing
    | Grid(rows: nat)
    | Carousel(offsetPercent: int, activeDot: int, dots: nat, caption: string)
    | Crashed

  /** The rendering the guard `!partners || partners.length === 0` is meant
      to give: nothing for an absent or empty list, the grid in grid layout,
      and otherwise the carousel with one dot per partner, the current one
      marked and captioned. In grid layout the list is a list of rows of
      partners; only the number of rows is kept. */
  function Render(partners: Option<seq<Partner>>, gridLayout: bool, s: Slider): (r: View)
    ensures r != Crashed
    ensures r == Nothing <==> partners.None? || |partners.value| == 0
    ensures r.Grid? <==> gridLayout && r != Nothing
    ensures r.Grid? ==> r.rows == |partners.value|
    ensures r.Carousel? ==> r.dots == |partners.value| && r.activeDot == s.currentIndex
                            && r.offsetPercent == -100 * s.currentIndex
                            && r.caption == Label(partners.value, s.currentIndex)
  {
    if partners.None? || |partners.value| == 0 then Nothing
    else if gridLayout then Grid(|partners.value|)
    else Carousel(-(s.currentIndex * 100), s.currentIndex, |partners.value|,
                  Label(partners.value, s.currentIndex))
  }

  /** The rendering as the component is written: the auto-play effect's
      dependency list reads `partners.length` while rendering, before the
      guard is reached, so an absent list throws a TypeError in either
      layout. A present list renders as intended. */
  function RenderAsWritten(partners: Option<seq<Partner>>, gridLayout: bool, s: Slider): (r: View)
    ensures r == Crashed <==> partners.None?
    ensures partners.Some? ==> r == Render(partners, gridLayout, s)
  {
    match partners
    case None => Crashed
    case Some(ps) =>
      if |ps| == 0 then Nothing
      else if gridLayout then Grid(|ps|)
      else Carousel(-(s.currentIndex * 100), s.currentIndex, |ps|, Label(ps, s.currentIndex))
  }

  /** The guard against an absent list never takes effect: where the
      intended rendering shows nothing, the component throws. */
  lemma AbsentListCrashes(gridLayout: bool, s: Slider)
    ensures Render(None, gridLayout, s) == Nothing
    ensures RenderAsWritten(None, gridLayout, s) == Crashed
  {
  }

  /** Next and Previous undo each other on every valid index. */
  lemma NextPreviousInverse(i: int, n: int)
    requires InRange(i, n)
    ensures Previous(Next(i, n), n) == i
    ensures Next(Previous(i, n), n) == i
  {
  }

  /** `k` presses of Next from slide `i`. */
  function NextTimes(i: int, n: int, k: nat): int {
    if k == 0 then i else Next(NextTimes(i, n, k - 1), n)
  }

  /** Up to a full lap, `k` presses of Next advance the index by `k`,
      wrapping once past the last slide. */
  lemma {:induction false} NextTimesWraps(i: int, n: int, k: nat)
    requires InRange(i, n) && k <= n
    ensures NextTimes(i, n, k) == if i + k < n then i + k else i + k - n
  {
    if k > 0 {
      NextTimesWraps(i, n, k - 1);
    }
  }

  /** A full lap of `n` presses of Next returns to the starting slide. */
  lemma FullLap(i: int, n: int)
    requires InRange(i, n)
    ensures NextTimes(i, n, n) == i
  {
    NextTimesWraps(i, n, n);
  }

  /** Toggling play/pause twice restores the slider. */
  lemma ToggleTwice(s: Slider)
    ensures TogglePlayPause(TogglePlayPause(s)) == s
  {
  }

  /** The user and timer actions the slider reacts to. */
  datatype Action =
    | PressNext
    | PressPrevious
    | PressDot(index: int)
    | PressPlayPause
    | IntervalFired

  function Step(s: Slider, n: int, gridLayout: bool, a: Action): Slider {
    match a
    case PressNext => GoToNext(s, n)
    case PressPrevious => GoToPrevious(s, n)
    case PressDot(index) => GoToSlide(s, index)
    case PressPlayPause => TogglePlayPause(s)
    case IntervalFired => Tick(s, n, gridLayout)
  }

  /** Dots exist only for the partners that are shown. */
  predicate ValidAction(a: Action, n: int) {
    a.PressDot? ==> InRange(a.index, n)
  }

  function Run(s: Slider, n: int, gridLayout: bool, actions: seq<Action>): Slider
    decreases |actions|
  {
    if |actions| == 0 then s
    else Run(Step(s, n, gridLayout, actions[0]), n, gridLayout, actions[1..])
  }

  /** From any slider whose index lies within the list, no sequence of
      clicks and timer ticks moves the index outside it. */
  lemma {:induction false} IndexStaysInRange(s: Slider, n: int, gridLayout: bool, actions: seq<Action>)
    requires InRange(s.currentIndex, n)
    requires forall k :: 0 <= k < |actions| ==> ValidAction(actions[k], n)
    ensures InRange(Run(s, n, gridLayout, actions).currentIndex, n)
    decreases |actions|
  {
    if |actions| > 0 {
      var s' := Step(s, n, gridLayout, actions[0]);
      assert ValidAction(actions[0], n);
      assert InRange(s'.currentIndex, n);
      forall k | 0 <= k < |actions[1..]|
        ensures ValidAction(actions[1..][k], n)
      {
        assert actions[1..][k] == actions[k + 1];
      }
      IndexStaysInRange(s', n, gridLayout, actions[1..]);
    }
  }

  /** A freshly mounted slider shows the first partner and auto-plays, and
      no run of clicks and ticks from there leaves the list. */
  lemma InitialInRange(n: int, gridLayout: bool, actions: seq<Action>)
    requires n >= 1
    requires forall k :: 0 <= k < |actions| ==> ValidAction(actions[k], n)
    ensures Initial.currentIndex == 0 && Initial.isPlaying
    ensures InRange(Run(Initial, n, gridLayout, actions).currentIndex, n)
  {
    IndexStaysInRange(Initial, n, gridLayout, actions);
  }

  /** Every carousel the user can reach captions a real partner: its active
      dot is one of the dots, and the caption is that partner's name, or its
      alt text when the name is absent or empty. */
  lemma CarouselCaptionsPartner(ps: seq<Partner>, s: Slider, actions: seq<Action>)
    requires |ps| > 0 && InRange(s.currentIndex, |ps|)
    requires forall k :: 0 <= k < |actions| ==> ValidAction(actions[k], |ps|)
    ensures var v := Render(Some(ps), false, Run(s, |ps|, false, actions));
            v.Carousel? && 0 <= v.activeDot < v.dots && v.dots == |ps| &&
            v.caption == (if ps[v.activeDot].name.GetOr("") != "" then ps[v.activeDot].name.value
                          else ps[v.activeDot].alt)
  {
    IndexStaysInRange(s, |ps|, false, actions);
  }
}

=== FILE: text.dfy ===
/** String helpers shared by the URL rewriting and the Vimeo parsing code. */
module Text {
  import opened Optional

  /** `pat` occurs in `s` starting at position `i`. */
  predicate OccursAt(s: string, pat: string, i: nat) {
    i + |pat| <= |s| && s[i..i + |pat|] == pat
  }

  /** `s` starts with `pat` (a regular expression anchored with `^`). */
  predicate StartsWith(s: string, pat: string) {
    OccursAt(s, pat, 0)
  }

  /** The leftmost position at or after `from` where `pat` occurs in `s`,
      as `String.prototype.indexOf` computes it. */
  function IndexOf(s: string, pat: string, from: nat): (r: Option<nat>)
    ensures r.Some? ==> from <= r.value && OccursAt(s, pat, r.value)
    ensures r.Some? ==> forall j :: from <= j < r.value ==> !OccursAt(s, pat, j)
    ensures r.None? ==> forall j :: from <= j ==> !OccursAt(s, pat, j)
    decreases |s| - from
  {
    if from + |pat| > |s| then None
    else if OccursAt(s, pat, from) then Some(from)
    else IndexOf(s, pat, from + 1)
  }

  /** `s` contains `pat` somewhere (`String.prototype.includes`). */
  predicate Contains(s: string, pat: string) {
    IndexOf(s, pat, 0).Some?
  }

  /** A string in which the character `c` never appears cannot hold any
      pattern that contains `c`. */
  lemma NoOccurrenceWithout(s: string, pat: string, c: char, k: nat)
    requires k < |pat| && pat[k] == c
    requires forall i :: 0 <= i < |s| ==> s[i] != c
    ensures IndexOf(s, pat, 0).None?
  {
  }
}

=== FILE: vimeo_id.dfy ===
/** Extraction of a Vimeo video id from whatever the page author supplied (a
    bare id, an id with a privacy hash, or a vimeo.com / player.vimeo.com URL),
    and the split of such an id into the numeric id and the hash handed to the
    player SDK. The regular expressions of `getVimeoVideoId` become hand-written
    matchers: the two anchored ones test the whole string, the three unanchored
    ones are searched leftmost-first, as `String.prototype.match` does. */
module VimeoId {
  import opened Optional
  import opened Text

  /** The character classes the patterns use: `\d`, `\w` and `[a-zA-Z0-9]`. */
  datatype CharClass = Digit | Word | Alnum

  predicate InClass(c: char, cls: CharClass) {
    var alnum := '0' <= c <= '9' || 'a' <= c <= 'z' || 'A' <= c <= 'Z';
    match cls
    case Digit => '0' <= c <= '9'
    case Word => alnum || c == '_'
    case Alnum => alnum
  }

  /** Every character of `s` lies in `cls`. */
  predicate AllIn(s: string, cls: CharClass) {
    forall i :: 0 <= i < |s| ==> InClass(s[i], cls)
  }

  /** One or more characters, all in `cls` (the regular expression `cls+`). */
  predicate NonEmptyRun(s: string, cls: CharClass) {
    |s| > 0 && AllIn(s, cls)
  }

  /** The length of the longest run of `cls` characters starting at `i`: what
      a greedy `cls+` consumes there. */
  function RunLength(s: string, i: nat, cls: CharClass): (r: nat)
    requires i <= |s|
    ensures i + r <= |s|
    ensures AllIn(s[i..i + r], cls)
    ensures i + r == |s| || !InClass(s[i + r], cls)
    decreases |s| - i
  {
    if i < |s| && InClass(s[i], cls) then
      var r := 1 + RunLength(s, i + 1, cls);
      assert s[i..i + r] == [s[i]] + s[i + 1..i + r];
      r
    else 0
  }

  /** `t` is what a greedy `cls+` captures at position `i` of `s`: it is the
      text found there, all in `cls`, and the character after it (if any) is
      not. */
  predicate GreedyRunAt(s: string, i: nat, t: string, cls: CharClass) {
    i + |t| <= |s| && s[i..i + |t|] == t && NonEmptyRun(t, cls) &&
    (i + |t| == |s| || !InClass(s[i + |t|], cls))
  }

  /** The privacy-hash separator. */
  const HashMarker: string := "?h="

  /** `^\d+$`: a bare numeric id. */
  predicate IsPlainId(s: string) {
    NonEmptyRun(s, Digit)
  }

  /** The anchored plain-id test as the regular expression runs it: the
      greedy digit run from the start is non-empty and reaches the end. */
  lemma PlainIdAnchored(s: string)
    ensures IsPlainId(s) <==> |s| > 0 && RunLength(s, 0, Digit) == |s|
  {
    if IsPlainId(s) {
      RunExactly(s, 0, |s|, Digit);
    }
    if |s| > 0 && RunLength(s, 0, Digit) == |s| {
      assert s[0..|s|] == s;
    }
  }

  /** `^\d+\?h=[\w]+$`: a numeric id followed by a privacy hash. The greedy
      digit run from the start is the id, so the test succeeds exactly when
      the string splits into digits, the marker and word characters. */
  predicate IsHashedId(s: string): (b: bool)
    ensures b <==> exists d, h :: s == d + HashMarker + h && IsPlainId(d) && NonEmptyRun(h, Word)
  {
    var n := RunLength(s, 0, Digit);
    var b := n > 0 && OccursAt(s, HashMarker, n) && NonEmptyRun(s[n + |HashMarker|..], Word);
    if b then
      HashedIdSplits(s, n);
      true
    else
      HashedIdUnsplit(s, n);
      false
  }

  /** A string that passes the anchored hashed test splits at the end of its
      leading digit run. */
  lemma HashedIdSplits(s: string, n: nat)
    requires n == RunLength(s, 0, Digit)
    requires n > 0 && OccursAt(s, HashMarker, n) && NonEmptyRun(s[n + |HashMarker|..], Word)
    ensures exists d, h :: s == d + HashMarker + h && IsPlainId(d) && NonEmptyRun(h, Word)
  {
    var d, h := s[..n], s[n + |HashMarker|..];
    assert s == d + HashMarker + h;
    assert s[0..n] == d;
    assert IsPlainId(d);
  }

  /** Any split into digits, the marker and word characters is the one the
      anchored hashed test finds. */
  lemma HashedIdUnsplit(s: string, n: nat)
    requires n == RunLength(s, 0, Digit)
    ensures (exists d, h :: s == d + HashMarker + h && IsPlainId(d) && NonEmptyRun(h, Word)) ==>
            n > 0 && OccursAt(s, HashMarker, n) && NonEmptyRun(s[n + |HashMarker|..], Word)
  {
    if exists d, h :: s == d + HashMarker + h && IsPlainId(d) && NonEmptyRun(h, Word) {
      var d, h :| s == d + HashMarker + h && IsPlainId(d) && NonEmptyRun(h, Word);
      HashedSplitAt(s, d, h);
    }
  }

  /** The leading digit run of `d + "?h=" + h` is exactly `d`. */
  lemma HashedSplitAt(s: string, d: string, h: string)
    requires s == d + HashMarker + h && IsPlainId(d) && NonEmptyRun(h, Word)
    ensures RunLength(s, 0, Digit) == |d| && OccursAt(s, HashMarker, |d|)
    ensures s[|d| + |HashMarker|..] == h
  {
    assert s == d + (HashMarker + h);
    DigitPrefix(d, HashMarker + h);
    assert s[|d|..|d| + |HashMarker|] == HashMarker;
  }

  /** The shapes the player accepts as they are. */
  predicate IsVideoId(s: string) {
    IsPlainId(s) || IsHashedId(s)
  }

  /** A successful pattern match: the numeric id and, when captured, the hash. */
  datatype Found = Found(id: string, hash: Option<string>)

  /** The three unanchored URL patterns, in the order they are tried. */
  datatype Pattern =
    | HashedUrl   // vimeo\.com\/(\d+)\/([a-zA-Z0-9]+)
    | PlainUrl    // vimeo\.com\/(\d+)(?:\?h=([\w]+))?
    | PlayerUrl   // player\.vimeo\.com\/video\/(\d+)(?:\?h=([\w]+))?

  function Literal(p: Pattern): (lit: string)
    ensures |lit| > 0
  {
    match p
    case HashedUrl => "vimeo.com/"
    case PlainUrl => "vimeo.com/"
    case PlayerUrl => "player.vimeo.com/video/"
  }

  /** The scheme and host in front of the id in an embed link. */
  const EmbedBase: string := "https://player.vimeo.com/video/"

  /** The length of `https://`: where the player literal starts in an embed link. */
  const SchemeLength: nat := 8

  /** The length of `https://player.`: where the host's `vimeo.com/` starts. */
  const HostVimeoAt: nat := 15

  /** The position of the dot within the literal `vimeo.com/`. */
  const PlainDot: nat := 5

  /** `\/([a-zA-Z0-9]+)` at position `e`: the hash of a hashed URL. */
  function SlashHashAt(s: string, e: nat): (r: Option<string>)
    ensures r.Some? ==> e < |s| && s[e] == '/' && GreedyRunAt(s, e + 1, r.value, Alnum)
    ensures r.Some? ==> NonEmptyRun(r.value, Word)
    ensures r.None? ==> e >= |s| || s[e] != '/' || e + 1 == |s| || !InClass(s[e + 1], Alnum)
  {
    if e < |s| && s[e] == '/' then
      var a := RunLength(s, e + 1, Alnum);
      if a == 0 then None else Some(s[e + 1..e + 1 + a])
    else None
  }

  /** `(?:\?h=([\w]+))?` at position `e`: the optional hash of a plain or
      player URL; `None` when the optional group matches nothing. */
  function OptionalHashAt(s: string, e: nat): (r: Option<string>)
    ensures r.Some? <==> OccursAt(s, HashMarker, e) && e + |HashMarker| < |s| &&
                         InClass(s[e + |HashMarker|], Word)
    ensures r.Some? ==> GreedyRunAt(s, e + |HashMarker|, r.value, Word)
  {
    if OccursAt(s, HashMarker, e) && RunLength(s, e + |HashMarker|, Word) > 0 then
      var w := RunLength(s, e + |HashMarker|, Word);
      Some(s[e + |HashMarker|..e + |HashMarker| + w])
    else None
  }

  /** `hash` is what pattern `p` captures after an id ending at `e`: for the
      hashed pattern, the greedy alphanumeric run after a `/`; for the others,
      the greedy word run after `?h=` when a word character follows the
      marker, and nothing otherwise. */
  predicate HashCaptured(p: Pattern, s: string, e: nat, hash: Option<string>) {
    if p == HashedUrl then
      hash.Some? && e < |s| && s[e] == '/' && GreedyRunAt(s, e + 1, hash.value, Alnum) &&
      NonEmptyRun(hash.value, Word)
    else
      (hash.Some? <==>
         (OccursAt(s, HashMarker, e) && e + |HashMarker| < |s| && InClass(s[e + |HashMarker|], Word))) &&
      (hash.Some? ==> GreedyRunAt(s, e + |HashMarker|, hash.value, Word))
  }

  /** `f` is what pattern `p` captures when its literal ends at `j`: the
      greedy digit run there as the id, and the hash that follows it. */
  predicate Captured(p: Pattern, s: string, j: nat, f: Found) {
    GreedyRunAt(s, j, f.id, Digit) && HashCaptured(p, s, j + |f.id|, f.hash)
  }

  /** The match of `p` that starts exactly at position `k`, if there is one:
      the literal, the greedy digit run after it as the id, and the hash as
      the pattern captures it. Greedy `\d+` never needs to give back
      characters here, because what follows it (`/`, `?` or nothing) is
      never a digit. */
  function MatchAt(p: Pattern, s: string, k: nat): (r: Option<Found>)
    ensures r.Some? ==> OccursAt(s, Literal(p), k)
    ensures r.Some? ==> Captured(p, s, k + |Literal(p)|, r.value)
    ensures r.None? && p != HashedUrl ==> !OccursAt(s, Literal(p), k) || RunLength(s, k + |Literal(p)|, Digit) == 0
    ensures r.None? && p == HashedUrl && OccursAt(s, Literal(p), k) ==>
              var e := k + |Literal(p)| + RunLength(s, k + |Literal(p)|, Digit);
              e == k + |Literal(p)| || e >= |s| || s[e] != '/' || e + 1 == |s| || !InClass(s[e + 1], Alnum)
  {
    if !OccursAt(s, Literal(p), k) then None
    else
      MatchAfter(p, s, k + |Literal(p)|)
  }

  /** The part of pattern `p` after its literal, starting at position `j`. */
  function MatchAfter(p: Pattern, s: string, j: nat): (r: Option<Found>)
    requires j <= |s|
    ensures r.Some? ==> Captured(p, s, j, r.value)
    ensures r.None? && p != HashedUrl ==> RunLength(s, j, Digit) == 0
    ensures r.None? && p == HashedUrl ==>
              var e := j + RunLength(s, j, Digit);
              e == j || e >= |s| || s[e] != '/' || e + 1 == |s| || !InClass(s[e + 1], Alnum)
  {
    var d := RunLength(s, j, Digit);
    if d == 0 then None
    else
      var id := s[j..j + d];
      if p == HashedUrl then
        match SlashHashAt(s, j + d)
        case Some(h) =>
          SlashHashCaptured(s, j + d);
          IdThenHash(p, s, j, d, Some(h));
          Some(Found(id, Some(h)))
        case None => None
      else
        var hash := OptionalHashAt(s, j + d);
        OptionalHashCaptured(p, s, j + d);
        IdThenHash(p, s, j, d, hash);
        Some(Found(id, hash))
  }

  /** The greedy digit run at `j` followed by a captured hash is a capture
      of the whole pattern. */
  lemma IdThenHash(p: Pattern, s: string, j: nat, d: nat, hash: Option<string>)
    requires j <= |s| && d == RunLength(s, j, Digit) && d > 0
    requires HashCaptured(p, s, j + d, hash)
    ensures Captured(p, s, j, Found(s[j..j + d], hash))
  {
    assert |s[j..j + d]| == d;
  }

  lemma SlashHashCaptured(s: string, e: nat)
    requires SlashHashAt(s, e).Some?
    ensures HashCaptured(HashedUrl, s, e, SlashHashAt(s, e))
  {
  }

  lemma OptionalHashCaptured(p: Pattern, s: string, e: nat)
    requires p != HashedUrl
    ensures HashCaptured(p, s, e, OptionalHashAt(s, e))
  {
  }

  /** The leftmost position at or after `k` where `p` matches. */
  function FirstMatch(p: Pattern, s: string, k: nat): (r: Option<nat>)
    ensures r.Some? ==> k <= r.value && MatchAt(p, s, r.value).Some? &&
                        forall i :: k <= i < r.value ==> MatchAt(p, s, i).None?
    ensures r.None? ==> forall j :: k <= j ==> MatchAt(p, s, j).None?
    decreases |s| - k
  {
    if k > |s| then
      assert forall j :: k <= j ==> !OccursAt(s, Literal(p), j);
      None
    else if MatchAt(p, s, k).Some? then Some(k)
    else
      var r := FirstMatch(p, s, k + 1);
      MissExtends(p, s, k, r);
      r
  }

  /** A miss at `k` extends the misses the search from `k + 1` found. */
  lemma MissExtends(p: Pattern, s: string, k: nat, r: Option<nat>)
    requires MatchAt(p, s, k).None?
    requires r.Some? ==> forall i :: k + 1 <= i < r.value ==> MatchAt(p, s, i).None?
    requires r.None? ==> forall i :: k + 1 <= i ==> MatchAt(p, s, i).None?
    ensures r.Some? ==> forall i :: k <= i < r.value ==> MatchAt(p, s, i).None?
    ensures r.None? ==> forall i :: k <= i ==> MatchAt(p, s, i).None?
  {
  }

  /** The leftmost match of `p` at or after position `k` (`String.prototype.match`). */
  function Search(p: Pattern, s: string, k: nat): (r: Option<Found>)
    ensures r.None? <==> forall j :: k <= j ==> MatchAt(p, s, j).None?
    ensures r.Some? ==> exists j :: k <= j && MatchAt(p, s, j) == r &&
                          forall i :: k <= i < j ==> MatchAt(p, s, i).None?
  {
    match FirstMatch(p, s, k)
    case Some(j) => MatchAt(p, s, j)
    case None => None
  }

  /** `id?h=hash` as `getVimeoVideoId` assembles it, or the bare id. */
  function Join(id: string, hash: Option<string>): string {
    match hash
    case Some(h) => id + HashMarker + h
    case None => id
  }

  /** `getVimeoVideoId`: the id to hand to the player, or `None` for an empty,
      absent or unrecognised input. */
  function GetVideoId(url: Option<string>): (r: Option<string>)
    ensures r.Some? ==> IsVideoId(r.value)
    ensures url.Some? && IsVideoId(url.value) ==> r == url
    ensures r.None? <==>
              url.None? || url.value == "" ||
              (!IsVideoId(url.value) && forall j :: MatchAt(PlainUrl, url.value, j).None?
                                                   && MatchAt(PlayerUrl, url.value, j).None?)
  {
    if url.None? || url.value == "" then None
    else
      var u := url.value;
      if IsHashedId(u) || IsPlainId(u) then Some(u)
      else
        match Search(HashedUrl, u, 0)
        case Some(f) =>
          HashedShape(f.id, f.hash.value);
          NoHashedWithoutPlain(u, f);
          Some(Join(f.id, f.hash))
        case None =>
          match Search(PlainUrl, u, 0)
          case Some(f) =>
            FoundShape(f);
            Some(Join(f.id, f.hash))
          case None =>
            match Search(PlayerUrl, u, 0)
            case Some(f) =>
              FoundShape(f);
              Some(Join(f.id, f.hash))
            case None => None
  }

  /** Digits, the marker and a run of word characters form a hashed id. */
  lemma HashedShape(id: string, hash: string)
    requires IsPlainId(id) && NonEmptyRun(hash, Word)
    ensures IsHashedId(id + HashMarker + hash)
  {
    var s := id + HashMarker + hash;
    DigitPrefix(id, HashMarker + hash);
    assert s[|id|..|id| + |HashMarker|] == HashMarker;
    assert s[|id| + |HashMarker|..] == hash;
  }

  /** Whatever a URL pattern captures joins into an accepted id. */
  lemma FoundShape(f: Found)
    requires IsPlainId(f.id)
    requires f.hash.Some? ==> NonEmptyRun(f.hash.value, Word)
    ensures IsVideoId(Join(f.id, f.hash))
  {
    if f.hash.Some? {
      HashedShape(f.id, f.hash.value);
    }
  }

  /** A match of the hashed pattern is also a match of the plain pattern, at
      the same place. */
  lemma NoHashedWithoutPlain(u: string, f: Found)
    requires exists j :: MatchAt(HashedUrl, u, j) == Some(f)
    ensures exists j :: MatchAt(PlainUrl, u, j).Some?
  {
    var j :| MatchAt(HashedUrl, u, j) == Some(f);
    HashedImpliesPlain(u, j);
  }

  lemma HashedImpliesPlain(u: string, j: nat)
    ensures MatchAt(HashedUrl, u, j).Some? ==> MatchAt(PlainUrl, u, j).Some?
  {
    if MatchAt(HashedUrl, u, j).Some? {
      var o := j + |Literal(HashedUrl)|;
      assert Literal(PlainUrl) == Literal(HashedUrl);
      assert MatchAt(HashedUrl, u, j) == MatchAfter(HashedUrl, u, o);
      assert RunLength(u, o, Digit) > 0;
      assert MatchAt(PlainUrl, u, j) == MatchAfter(PlainUrl, u, o);
    }
  }

  /** The digit run at the start of `digits + rest` is exactly `digits` when
      `rest` does not start with a digit. */
  lemma DigitPrefix(digits: string, rest: string)
    requires IsPlainId(digits) && |rest| > 0 && !InClass(rest[0], Digit)
    ensures RunLength(digits + rest, 0, Digit) == |digits|
  {
    RunExactly(digits + rest, 0, |digits|, Digit);
  }

  /** A greedy run from `o` over `n` characters of the class stops exactly
      after them when the next character is outside the class. */
  lemma {:induction false} RunExactly(s: string, o: nat, n: nat, cls: CharClass)
    requires o + n <= |s|
    requires forall k :: o <= k < o + n ==> InClass(s[k], cls)
    requires o + n == |s| || !InClass(s[o + n], cls)
    ensures RunLength(s, o, cls) == n
    decreases n
  {
    if n > 0 {
      RunExactly(s, o + 1, n - 1, cls);
    }
  }

  /** getVimeoVideoId is idempotent: its output is already in a shape it
      returns unchanged. */
  lemma GetVideoIdIdempotent(url: Option<string>)
    ensures GetVideoId(GetVideoId(url)) == GetVideoId(url)
  {
  }

  /** The hashed-URL pattern takes precedence: when the input is not already
      an id and the leftmost `vimeo.com/<digits>/<alnum>` match is at `j`, the
      result is that match's id and hash, whatever the other patterns say. */
  lemma HashedUrlWins(u: string, j: nat, f: Found)
    requires u != "" && !IsVideoId(u)
    requires MatchAt(HashedUrl, u, j) == Some(f)
    requires forall i :: 0 <= i < j ==> MatchAt(HashedUrl, u, i).None?
    ensures GetVideoId(Some(u)) == Some(f.id + HashMarker + f.hash.value)
  {
    LeftmostIsFound(HashedUrl, u, j, f);
  }

  /** Search returns the match at the leftmost position that has one. */
  lemma LeftmostIsFound(p: Pattern, u: string, j: nat, f: Found)
    requires MatchAt(p, u, j) == Some(f)
    requires forall i :: 0 <= i < j ==> MatchAt(p, u, i).None?
    ensures Search(p, u, 0) == Some(f)
  {
    var m := FirstMatch(p, u, 0);
    assert m.Some?;
    var k := m.value;
    assert MatchAt(p, u, k).Some?;
    assert !(k < j);
    assert !(j < k);
    assert Search(p, u, 0) == MatchAt(p, u, k);
  }

  /** Otherwise the leftmost `vimeo.com/<digits>` match decides, with the
      `?h=` hash appended when one follows the digits immediately. */
  lemma PlainUrlNext(u: string, j: nat, f: Found)
    requires u != "" && !IsVideoId(u)
    requires forall i :: 0 <= i ==> MatchAt(HashedUrl, u, i).None?
    requires MatchAt(PlainUrl, u, j) == Some(f)
    requires forall i :: 0 <= i < j ==> MatchAt(PlainUrl, u, i).None?
    ensures GetVideoId(Some(u)) == Some(Join(f.id, f.hash))
  {
    assert Search(HashedUrl, u, 0).None?;
    LeftmostIsFound(PlainUrl, u, j, f);
  }

  /** Last, the leftmost `player.vimeo.com/video/<digits>` match decides. */
  lemma PlayerUrlLast(u: string, j: nat, f: Found)
    requires u != "" && !IsVideoId(u)
    requires forall i :: 0 <= i ==> MatchAt(PlainUrl, u, i).None?
    requires MatchAt(PlayerUrl, u, j) == Some(f)
    requires forall i :: 0 <= i < j ==> MatchAt(PlayerUrl, u, i).None?
    ensures GetVideoId(Some(u)) == Some(Join(f.id, f.hash))
  {
    forall i | 0 <= i
      ensures MatchAt(HashedUrl, u, i).None?
    {
      HashedImpliesPlain(u, i);
    }
    assert Search(HashedUrl, u, 0).None?;
    assert Search(PlainUrl, u, 0).None?;
    LeftmostIsFound(PlayerUrl, u, j, f);
  }

  /** An input whose first character is not a digit is never an id as it stands. */
  lemma NotAnId(u: string)
    requires |u| > 0 && !InClass(u[0], Digit)
    ensures !IsVideoId(u)
  {
    assert RunLength(u, 0, Digit) == 0;
  }

  /** The id and the hash the player is created with (`?h=` split): the part
      before the first marker, and the part between the first marker and the
      next one (or the end). A string without the marker has no hash. */
  function SplitIdHash(videoId: string): (r: (string, Option<string>))
    ensures !Contains(videoId, HashMarker) ==> r == (videoId, None)
    ensures Contains(videoId, HashMarker) ==>
              r.1.Some? && !Contains(r.0, HashMarker) && !Contains(r.1.value, HashMarker)
  {
    match IndexOf(videoId, HashMarker, 0)
    case None => (videoId, None)
    case Some(i) =>
      var rest := videoId[i + |HashMarker|..];
      var hash := match IndexOf(rest, HashMarker, 0)
                  case None => rest
                  case Some(k) => rest[..k];
      NoMarkerInPrefix(videoId, i);
      MarkerFreePrefix(rest);
      (videoId[..i], Some(hash))
  }

  /** No marker occurs in the part of a string before its first marker. */
  lemma NoMarkerInPrefix(s: string, i: nat)
    requires IndexOf(s, HashMarker, 0) == Some(i)
    ensures !Contains(s[..i], HashMarker)
  {
    forall j | 0 <= j && j + |HashMarker| <= i
      ensures OccursAt(s[..i], HashMarker, j) == OccursAt(s, HashMarker, j)
    {
      assert s[..i][j..j + |HashMarker|] == s[j..j + |HashMarker|];
    }
  }

  /** The part of `rest` before its first marker (or all of it) holds no marker. */
  lemma MarkerFreePrefix(rest: string)
    ensures match IndexOf(rest, HashMarker, 0)
            case None => !Contains(rest, HashMarker)
            case Some(k) => !Contains(rest[..k], HashMarker)
  {
    if IndexOf(rest, HashMarker, 0).Some? {
      NoMarkerInPrefix(rest, IndexOf(rest, HashMarker, 0).value);
    }
  }

  /** Round trip of the split against the way ids are assembled: every
      accepted id splits back into the numeric id and the hash it was built
      from, and a bare id has no hash. */
  lemma {:induction false} SplitJoinRoundTrip(id: string, hash: Option<string>)
    requires IsPlainId(id)
    requires hash.Some? ==> NonEmptyRun(hash.value, Word)
    ensures SplitIdHash(Join(id, hash)) == (id, hash)
  {
    match hash
    case None =>
      NoOccurrenceWithout(id, HashMarker, '?', 0);
    case Some(h) =>
      var s := id + HashMarker + h;
      NoOccurrenceWithout(id, HashMarker, '?', 0);
      assert OccursAt(s, HashMarker, |id|);
      forall j | 0 <= j < |id|
        ensures !OccursAt(s, HashMarker, j)
      {
      }
      assert IndexOf(s, HashMarker, 0) == Some(|id|);
      assert s[|id| + |HashMarker|..] == h;
      NoOccurrenceWithout(h, HashMarker, '?', 0);
      assert s[..|id|] == id;
  }

  /** Split is the inverse of Join on everything getVimeoVideoId returns. */
  lemma SplitOfVideoId(v: string)
    requires IsVideoId(v)
    ensures var (id, hash) := SplitIdHash(v);
            IsPlainId(id) && Join(id, hash) == v
  {
    if IsHashedId(v) {
      var d := RunLength(v, 0, Digit);
      var id, h := v[..d], v[d + |HashMarker|..];
      assert v == id + HashMarker + h;
      SplitJoinRoundTrip(id, Some(h));
    } else {
      SplitJoinRoundTrip(v, None);
    }
  }

  /** A share link `<pre>vimeo.com/<digits>/<hash>` (such as
      `https://vimeo.com/76979871/8272103f6e`) yields `<digits>?h=<hash>`. */
  lemma ShareLink(pre: string, d: string, h: string)
    requires forall i :: 0 <= i < |pre| ==> pre[i] != 'v'
    requires |pre| == 0 || !InClass(pre[0], Digit)
    requires IsPlainId(d) && NonEmptyRun(h, Alnum)
    ensures GetVideoId(Some(pre + "vimeo.com/" + d + "/" + h)) == Some(d + HashMarker + h)
  {
    var u := pre + "vimeo.com/" + d + "/" + h;
    NotAnId(u);
    ShareLinkMatch(pre, d, h);
    NothingBefore(HashedUrl, pre, u);
    HashedUrlWins(u, |pre|, Found(d, Some(h)));
  }

  lemma ShareLinkMatch(pre: string, d: string, h: string)
    requires IsPlainId(d) && NonEmptyRun(h, Alnum)
    ensures MatchAt(HashedUrl, pre + "vimeo.com/" + d + "/" + h, |pre|) == Some(Found(d, Some(h)))
  {
    var lit := Literal(HashedUrl);
    var u := pre + lit + d + "/" + h;
    var j := |pre|;
    assert u[j..j + |lit|] == lit;
    assert u[j + |lit|..] == d + ("/" + h);
    HashedMatchAt(u, j, d, h);
  }

  /** The hashed pattern at `j` over a string laid out as literal, digits,
      slash, hash (and nothing after). */
  lemma HashedMatchAt(u: string, j: nat, d: string, h: string)
    requires IsPlainId(d) && NonEmptyRun(h, Alnum)
    requires OccursAt(u, Literal(HashedUrl), j)
    requires u[j + |Literal(HashedUrl)|..] == d + ("/" + h)
    ensures MatchAt(HashedUrl, u, j) == Some(Found(d, Some(h)))
  {
    HashedRestAt(u, j + |Literal(HashedUrl)|, d, h);
  }

  lemma HashedRestAt(u: string, o: nat, d: string, h: string)
    requires IsPlainId(d) && NonEmptyRun(h, Alnum)
    requires o <= |u| && u[o..] == d + ("/" + h)
    ensures MatchAfter(HashedUrl, u, o) == Some(Found(d, Some(h)))
  {
    var tail := "/" + h;
    var e := o + |d|;
    assert tail[0] == '/' && |d| > 0;
    DigitsAt(u, o, d, tail);
    SlashHashGroupAt(u, e, h);
    HashedAfter(u, o, |d|, h);
  }

  /** The hashed pattern after its literal, once the digit run and the hash
      group behind it are known. */
  lemma HashedAfter(u: string, o: nat, n: nat, h: string)
    requires o <= |u| && RunLength(u, o, Digit) == n > 0
    requires SlashHashAt(u, o + n) == Some(h)
    ensures MatchAfter(HashedUrl, u, o) == Some(Found(u[o..o + n], Some(h)))
  {
    assert MatchAfter(HashedUrl, u, o) ==
           match SlashHashAt(u, o + n)
           case Some(g) => Some(Found(u[o..o + n], Some(g)))
           case None => None;
  }

  /** `/<hash>` at `e`, running to the end of the string. */
  lemma SlashHashGroupAt(u: string, e: nat, h: string)
    requires e <= |u| && u[e..] == "/" + h && NonEmptyRun(h, Alnum)
    ensures SlashHashAt(u, e) == Some(h)
  {
    assert u[e] == u[e..][0] == '/';
    forall k | e + 1 <= k < |u|
      ensures InClass(u[k], Alnum)
    {
      assert u[k] == u[e..][k - e] == h[k - e - 1];
    }
    RunExactly(u, e + 1, |h|, Alnum);
    assert u[e + 1..e + 1 + |h|] == u[e..][1..] == h;
  }

  /** No pattern matches inside a prefix that lacks the pattern's first letter. */
  lemma NothingBefore(p: Pattern, pre: string, u: string)
    requires forall i :: 0 <= i < |pre| ==> pre[i] != Literal(p)[0]
    requires |pre| <= |u| && u[..|pre|] == pre
    ensures forall i :: 0 <= i < |pre| ==> MatchAt(p, u, i).None?
  {
    forall i | 0 <= i < |pre|
      ensures !OccursAt(u, Literal(p), i)
    {
      assert u[i] == pre[i];
    }
  }

  /** An embed link `https://player.vimeo.com/video/<digits>`, optionally
      followed by `?h=<hash>`, yields exactly the id it embeds. */
  lemma PlayerLink(d: string, hash: Option<string>)
    requires IsPlainId(d)
    requires hash.Some? ==> NonEmptyRun(hash.value, Word)
    ensures GetVideoId(Some(EmbedBase + Join(d, hash))) == Some(Join(d, hash))
  {
    var pre := EmbedBase;
    var u := pre + Join(d, hash);
    NotAnId(u);
    PlayerLinkMatch(d, hash);
    PlayerLinkNoPlainMatch(d, hash);
    EmbedNothingBefore(Join(d, hash));
    PlayerUrlLast(u, SchemeLength, Found(d, hash));
  }

  /** The scheme `https://` holds no start of the player pattern. */
  lemma EmbedNothingBefore(rest: string)
    ensures forall i :: 0 <= i < SchemeLength ==> MatchAt(PlayerUrl, EmbedBase + rest, i).None?
  {
    forall i | 0 <= i < SchemeLength
      ensures MatchAt(PlayerUrl, EmbedBase + rest, i).None?
    {
      NoPlayerInScheme(rest, i);
    }
  }

  /** Position `i` of the scheme `https://` does not start `player.vimeo.com/video/`. */
  lemma NoPlayerInScheme(rest: string, i: nat)
    requires i < SchemeLength
    ensures MatchAt(PlayerUrl, EmbedBase + rest, i).None?
  {
    NoPlayerLiteralInScheme(rest, i);
  }

  lemma NoPlayerLiteralInScheme(rest: string, i: nat)
    requires i < SchemeLength
    ensures !OccursAt(EmbedBase + rest, Literal(PlayerUrl), i)
  {
    var u := EmbedBase + rest;
    var lit := Literal(PlayerUrl);
    SchemeChars(rest, i);
    assert lit[0] == 'p' && lit[1] == 'l';
    if i == 3 {
      Mismatch(u, lit, i, 1);
    } else {
      Mismatch(u, lit, i, 0);
    }
  }

  /** The only `p` of the scheme is the one of `http`, followed by `s`. */
  lemma SchemeChars(rest: string, i: nat)
    requires i < SchemeLength
    ensures var u := EmbedBase + rest;
            (i != 3 ==> u[i] != 'p') && u[4] == 's'
  {
  }

  /** One differing character rules out an occurrence. */
  lemma Mismatch(u: string, lit: string, i: nat, k: nat)
    requires k < |lit| && (i + k >= |u| || u[i + k] != lit[k])
    ensures !OccursAt(u, lit, i)
  {
    if i + |lit| <= |u| {
      assert u[i..i + |lit|][k] == u[i + k];
    }
  }

  lemma PlayerLinkMatch(d: string, hash: Option<string>)
    requires IsPlainId(d)
    requires hash.Some? ==> NonEmptyRun(hash.value, Word)
    ensures MatchAt(PlayerUrl, EmbedBase + Join(d, hash), SchemeLength) == Some(Found(d, hash))
  {
    var pre := EmbedBase;
    var u := pre + Join(d, hash);
    EmbedPrefix(Join(d, hash));
    assert u[|EmbedBase|..] == Join(d, hash);
    PlayerMatchAt(u, SchemeLength, d, hash);
  }

  /** The player pattern at `j` over a string laid out as literal, digits and
      the optional `?h=<hash>` (and nothing after). */
  lemma PlayerMatchAt(u: string, j: nat, d: string, hash: Option<string>)
    requires IsPlainId(d)
    requires hash.Some? ==> NonEmptyRun(hash.value, Word)
    requires OccursAt(u, Literal(PlayerUrl), j)
    requires u[j + |Literal(PlayerUrl)|..] == Join(d, hash)
    ensures MatchAt(PlayerUrl, u, j) == Some(Found(d, hash))
  {
    PlayerRestAt(u, j + |Literal(PlayerUrl)|, d, hash);
  }

  lemma PlayerRestAt(u: string, o: nat, d: string, hash: Option<string>)
    requires IsPlainId(d)
    requires hash.Some? ==> NonEmptyRun(hash.value, Word)
    requires o <= |u| && u[o..] == Join(d, hash)
    ensures MatchAfter(PlayerUrl, u, o) == Some(Found(d, hash))
  {
    if hash.Some? {
      PlayerRestHashed(u, o, d, hash.value);
    } else {
      PlayerRestBare(u, o, d);
    }
  }

  /** The player pattern after its literal on `<digits>?h=<hash>`. */
  lemma PlayerRestHashed(u: string, o: nat, d: string, h: string)
    requires IsPlainId(d) && NonEmptyRun(h, Word)
    requires o <= |u| && u[o..] == d + HashMarker + h
    ensures MatchAfter(PlayerUrl, u, o) == Some(Found(d, Some(h)))
  {
    HashedDigitsAt(u, o, d, h);
    PlayerAfterHash(u, o, |d|, h);
  }

  /** The player pattern after its literal, once the digit run and the
      marker and hash behind it are known. */
  lemma PlayerAfterHash(u: string, o: nat, n: nat, h: string)
    requires o <= |u| && RunLength(u, o, Digit) == n > 0
    requires u[o + n..] == HashMarker + h && NonEmptyRun(h, Word)
    ensures MatchAfter(PlayerUrl, u, o) == Some(Found(u[o..o + n], Some(h)))
  {
    HashGroupAt(u, o + n, h);
    PlayerAfter(u, o, n, Some(h));
  }

  /** Digits `d` at `o`, followed by the marker and a hash. */
  lemma HashedDigitsAt(u: string, o: nat, d: string, h: string)
    requires IsPlainId(d)
    requires o <= |u| && u[o..] == d + HashMarker + h
    ensures RunLength(u, o, Digit) == |d| && u[o..o + |d|] == d
    ensures u[o + |d|..] == HashMarker + h
  {
    assert u[o..] == d + (HashMarker + h);
    DigitsAt(u, o, d, HashMarker + h);
  }

  /** The player pattern after its literal on bare digits. */
  lemma PlayerRestBare(u: string, o: nat, d: string)
    requires IsPlainId(d)
    requires o <= |u| && u[o..] == d
    ensures MatchAfter(PlayerUrl, u, o) == Some(Found(d, None))
  {
    assert u[o..] == d + "";
    DigitsAt(u, o, d, "");
    NoHashAtEnd(u, o + |d|);
    PlayerAfter(u, o, |d|, None);
  }

  /** Nothing is left for the optional hash group at the end of the string. */
  lemma NoHashAtEnd(u: string, e: nat)
    requires e == |u|
    ensures OptionalHashAt(u, e) == None
  {
  }

  /** The player pattern after its literal, once the digit run and the
      optional hash group behind it are known. */
  lemma PlayerAfter(u: string, o: nat, n: nat, hash: Option<string>)
    requires o <= |u| && RunLength(u, o, Digit) == n > 0
    requires OptionalHashAt(u, o + n) == hash
    ensures MatchAfter(PlayerUrl, u, o) == Some(Found(u[o..o + n], hash))
  {
    assert MatchAfter(PlayerUrl, u, o) == Some(Found(u[o..o + RunLength(u, o, Digit)], OptionalHashAt(u, o + RunLength(u, o, Digit))));
  }

  /** Digits `d` at `o`, followed by something that does not start with a digit. */
  lemma DigitsAt(u: string, o: nat, d: string, tail: string)
    requires o <= |u| && u[o..] == d + tail && IsPlainId(d)
    requires |tail| == 0 || !InClass(tail[0], Digit)
    ensures RunLength(u, o, Digit) == |d| && u[o..o + |d|] == d
    ensures u[o + |d|..] == tail
  {
    forall k | o <= k < o + |d|
      ensures InClass(u[k], Digit)
    {
      assert u[k] == u[o..][k - o] == d[k - o];
    }
    if |tail| > 0 {
      assert u[o + |d|] == u[o..][|d|] == tail[0];
    }
    RunExactly(u, o, |d|, Digit);
    assert u[o..o + |d|] == u[o..][..|d|];
    assert u[o + |d|..] == u[o..][|d|..];
  }

  /** `?h=<hash>` at `e`, running to the end of the string. */
  lemma HashGroupAt(u: string, e: nat, h: string)
    requires e <= |u| && u[e..] == HashMarker + h && NonEmptyRun(h, Word)
    ensures OptionalHashAt(u, e) == Some(h)
  {
    assert u[e..e + 3] == u[e..][..3] == HashMarker;
    forall k | e + 3 <= k < |u|
      ensures InClass(u[k], Word)
    {
      assert u[k] == u[e..][k - e] == h[k - e - 3];
    }
    RunExactly(u, e + 3, |h|, Word);
    assert u[e + 3..e + 3 + |h|] == u[e..][3..] == h;
  }

  lemma EmbedPrefix(rest: string)
    ensures OccursAt(EmbedBase + rest, Literal(PlayerUrl), SchemeLength)
  {
    var u := EmbedBase + rest;
    assert u[SchemeLength..|EmbedBase|] == EmbedBase[SchemeLength..];
  }

  /** In an embed link, the only `vimeo.com/` is followed by `video/`, not by
      digits, so the plain pattern finds nothing. */
  lemma PlayerLinkNoPlainMatch(d: string, hash: Option<string>)
    requires IsPlainId(d)
    requires hash.Some? ==> NonEmptyRun(hash.value, Word)
    ensures forall i :: 0 <= i ==> MatchAt(PlainUrl, EmbedBase + Join(d, hash), i).None?
  {
    var u := EmbedBase + Join(d, hash);
    forall i | 0 <= i
      ensures MatchAt(PlainUrl, u, i).None?
    {
      NoPlainMatchAt(d, hash, i);
    }
  }

  /** An assembled id holds no dot. */
  lemma JoinHasNoDot(d: string, hash: Option<string>)
    requires IsPlainId(d)
    requires hash.Some? ==> NonEmptyRun(hash.value, Word)
    ensures forall k :: 0 <= k < |Join(d, hash)| ==> Join(d, hash)[k] != '.'
  {
    var rest := Join(d, hash);
    forall k | 0 <= k < |rest|
      ensures rest[k] != '.'
    {
      if hash.Some? && k >= |d| + 3 {
        assert rest[k] == hash.value[k - |d| - 3];
      } else if k < |d| {
        assert rest[k] == d[k];
      }
    }
  }

  /** The plain pattern does not match at position `i` of an embed link. */
  lemma NoPlainMatchAt(d: string, hash: Option<string>, i: nat)
    requires IsPlainId(d)
    requires hash.Some? ==> NonEmptyRun(hash.value, Word)
    ensures MatchAt(PlainUrl, EmbedBase + Join(d, hash), i).None?
  {
    var rest := Join(d, hash);
    if i + PlainDot >= |EmbedBase| {
      JoinHasNoDot(d, hash);
      NoPlainInTail(rest, i);
    } else if i == HostVimeoAt {
      NoPlainAtHost(rest);
    } else {
      NoPlainInScheme(rest, i);
    }
  }

  /** Past the scheme and host, a dot-free rest leaves no room for `vimeo.com/`. */
  lemma NoPlainInTail(rest: string, i: nat)
    requires forall k :: 0 <= k < |rest| ==> rest[k] != '.'
    requires i + PlainDot >= |EmbedBase|
    ensures MatchAt(PlainUrl, EmbedBase + rest, i).None?
  {
    var u := EmbedBase + rest;
    if i + PlainDot < |u| {
      assert u[i + PlainDot] == rest[i + PlainDot - |EmbedBase|];
    }
    Mismatch(u, Literal(PlainUrl), i, PlainDot);
  }

  /** The host's `vimeo.com/` is followed by `video/`, not by digits. */
  lemma NoPlainAtHost(rest: string)
    ensures MatchAt(PlainUrl, EmbedBase + rest, HostVimeoAt).None?
  {
    var u := EmbedBase + rest;
    var path := HostVimeoAt + |Literal(PlainUrl)|;
    assert u[path] == 'v';
    assert RunLength(u, path, Digit) == 0;
    assert MatchAfter(PlainUrl, u, path).None?;
  }

  /** No other position before the path starts `vimeo.com/`. */
  lemma NoPlainInScheme(rest: string, i: nat)
    requires i + PlainDot < |EmbedBase| && i != HostVimeoAt
    ensures MatchAt(PlainUrl, EmbedBase + rest, i).None?
  {
    var pre := EmbedBase;
    var u := pre + rest;
    var lit := Literal(PlainUrl);
    assert lit[0] == 'v' && lit[2] == 'm';
    if i == HostVimeoAt + |Literal(PlainUrl)| {
      assert u[i + 2] == 'd';
      Mismatch(u, lit, i, 2);
    } else {
      assert u[i] == pre[i];
      Mismatch(u, lit, i, 0);
    }
  }

  /** The empty input has no id. */
  lemma EmptyInput()
    ensures GetVideoId(Some("")) == None
    ensures GetVideoId(None) == None
  {
  }
}

=== FILE: vimeo_player.dfy ===
/** The pure parts of the Vimeo hero player's controls: the `m:ss` clock
    shown next to the progress bar and the play/pause button. Time is whole
    seconds; the SDK reports fractional seconds, which are not modelled. */
module VimeoPlayer {
  import opened Optional
  import opened Text
  import opened VimeoId

  function DigitChar(d: nat): (c: char)
    requires d < 10
    ensures InClass(c, Digit)
  {
    (48 + d) as char
  }

  function DigitValue(c: char): (d: nat)
    requires InClass(c, Digit)
    ensures d < 10 && DigitChar(d) == c
  {
    (c as int - 48) as nat
  }

  /** `n.toString()` for a natural number: decimal digits, no leading zero. */
  function Decimal(n: nat): (r: string)
    ensures IsPlainId(r)
    ensures |r| == 1 || r[0] != '0'
    ensures n < 10 <==> |r| == 1
  {
    if n < 10 then [DigitChar(n)] else Decimal(n / 10) + [DigitChar(n % 10)]
  }

  /** The number a string of decimal digits denotes. */
  function DecimalValue(s: string): nat
    requires AllIn(s, Digit)
  {
    if |s| == 0 then 0 else DecimalValue(s[..|s| - 1]) * 10 + DigitValue(s[|s| - 1])
  }

  /** Reading back what Decimal wrote gives the number. */
  lemma {:induction false} DecimalRoundTrip(n: nat)
    ensures DecimalValue(Decimal(n)) == n
  {
    var r := Decimal(n);
    if n >= 10 {
      DecimalRoundTrip(n / 10);
      assert r[..|r| - 1] == Decimal(n / 10);
    }
  }

  /** `s.padStart(width, fill)`. */
  function PadStart(s: string, width: nat, fill: char): (r: string)
    ensures |r| == if |s| >= width then |s| else width
    ensures r[|r| - |s|..] == s
    ensures forall i :: 0 <= i < |r| - |s| ==> r[i] == fill
  {
    if |s| >= width then s else seq(width - |s|, _ => fill) + s
  }

  /** `formatTime` on whole seconds: minutes, a colon, and the seconds within
      the minute as exactly two digits. Zero (a falsy value) short-circuits
      to `0:00`, which is also what the general rule gives. */
  function FormatTime(seconds: nat): (r: string)
    ensures |r| >= 4 && r[|r| - 3] == ':'
    ensures IsPlainId(r[..|r| - 3]) && DecimalValue(r[..|r| - 3]) == seconds / 60
    ensures AllIn(r[|r| - 2..], Digit) && DecimalValue(r[|r| - 2..]) == seconds % 60
    ensures |r| == 4 || r[0] != '0'
  {
    if seconds == 0 then
      JoinClock("0", "00");
      "0:00"
    else
      var mins := Decimal(seconds / 60);
      var secs := PadStart(Decimal(seconds % 60), 2, '0');
      TwoDigitSeconds(seconds % 60);
      DecimalRoundTrip(seconds / 60);
      JoinClock(mins, secs);
      mins + ":" + secs
  }

  /** Where the two fields sit in `mins:ss`. */
  lemma JoinClock(mins: string, secs: string)
    requires |secs| == 2
    ensures var r := mins + ":" + secs;
            |r| == |mins| + 3 && r[|r| - 3] == ':' && r[..|r| - 3] == mins && r[|r| - 2..] == secs &&
            (|mins| > 0 ==> r[0] == mins[0])
  {
    var r := mins + ":" + secs;
    assert r[..|r| - 3] == mins;
    assert r[|r| - 2..] == secs;
  }

  /** Seconds below a minute are padded to two digits that still denote them. */
  lemma TwoDigitSeconds(s: nat)
    requires s < 60
    ensures var p := PadStart(Decimal(s), 2, '0');
            |p| == 2 && AllIn(p, Digit) && DecimalValue(p) == s
  {
    var p := PadStart(Decimal(s), 2, '0');
    DecimalRoundTrip(s);
    if s < 10 {
      assert p == ['0', DigitChar(s)];
      assert p[..1] == ['0'];
    } else {
      assert p == Decimal(s);
    }
  }

  /** Reads an `m:ss` clock back into seconds; `None` for anything that is
      not minutes, a colon and two digits below 60. */
  function ParseClock(t: string): (r: Option<nat>)
    ensures r.Some? ==> exists i :: 0 <= i < |t| && t[i] == ':'
  {
    match IndexOf(t, ":", 0)
    case None => None
    case Some(i) =>
      assert t[i..i + 1] == ":";
      var m, s := t[..i], t[i + 1..];
      if NonEmptyRun(m, Digit) && |s| == 2 && AllIn(s, Digit) && DecimalValue(s) < 60 then
        Some(DecimalValue(m) * 60 + DecimalValue(s))
      else None
  }

  /** The clock is faithful: reading it back gives the seconds it shows. */
  lemma ClockRoundTrip(seconds: nat)
    ensures ParseClock(FormatTime(seconds)) == Some(seconds)
  {
    ParseClockOf(FormatTime(seconds), seconds);
  }

  /** A clock whose fields denote the minutes and the seconds within the
      minute of `seconds` reads back as `seconds`. */
  lemma ParseClockOf(r: string, seconds: nat)
    requires |r| >= 4 && r[|r| - 3] == ':'
    requires IsPlainId(r[..|r| - 3]) && DecimalValue(r[..|r| - 3]) == seconds / 60
    requires AllIn(r[|r| - 2..], Digit) && DecimalValue(r[|r| - 2..]) == seconds % 60
    ensures ParseClock(r) == Some(seconds)
  {
    ParseClockShape(r);
  }

  /** Any string of FormatTime's shape reads back as minutes * 60 + seconds. */
  lemma ParseClockShape(r: string)
    requires |r| >= 4 && r[|r| - 3] == ':'
    requires IsPlainId(r[..|r| - 3])
    requires AllIn(r[|r| - 2..], Digit) && DecimalValue(r[|r| - 2..]) < 60
    ensures ParseClock(r) == Some(DecimalValue(r[..|r| - 3]) * 60 + DecimalValue(r[|r| - 2..]))
  {
    var c := |r| - 3;
    assert OccursAt(r, ":", c);
    forall j | 0 <= j < c
      ensures !OccursAt(r, ":", j)
    {
      assert r[j] == r[..c][j];
      assert r[j..j + 1][0] == r[j];
    }
    assert IndexOf(r, ":", 0) == Some(c);
    assert r[c + 1..] == r[|r| - 2..];
  }

  /** Different times show as different clocks. */
  lemma FormatTimeInjective(a: nat, b: nat)
    requires FormatTime(a) == FormatTime(b)
    ensures a == b
  {
    ClockRoundTrip(a);
    ClockRoundTrip(b);
  }

  lemma ZeroClock()
    ensures FormatTime(0) == "0:00"
    ensures FormatTime(59) == "0:59"
  {
    assert Decimal(59 % 60) == "59";
  }

  /** What the play/pause button asks of the SDK player. */
  datatype Command = NoCommand | CallPause | CallPlay

  /** `handlePlayPause`: nothing without a ready player; otherwise pause a
      playing video and play a paused one. */
  function HandlePlayPause(hasPlayer: bool, isReady: bool, isPlaying: bool): (c: Command)
    ensures c == NoCommand <==> !hasPlayer || !isReady
    ensures c == CallPause <==> hasPlayer && isReady && isPlaying
    ensures c == CallPlay <==> hasPlayer && isReady && !isPlaying
  {
    if !hasPlayer || !isReady then NoCommand
    else if isPlaying then CallPause
    else CallPlay
  }

  /** The SDK events the component listens to for the playing flag. */
  datatype PlayerEvent = PlayEvent | PauseEvent | EndedEvent

  /** The playing flag after an SDK event. */
  function OnEvent(isPlaying: bool, e: PlayerEvent): (r: bool)
    ensures r <==> e == PlayEvent
  {
    match e
    case PlayEvent => true
    case PauseEvent => false
    case EndedEvent => false
  }

  /** The event the SDK emits once it has carried out a command. */
  function Echo(c: Command): Option<PlayerEvent> {
    match c
    case NoCommand => None
    case CallPause => Some(PauseEvent)
    case CallPlay => Some(PlayEvent)
  }

  /** The playing flag after a click on the button, once the SDK has answered. */
  function AfterClick(hasPlayer: bool, isReady: bool, isPlaying: bool): bool {
    match Echo(HandlePlayPause(hasPlayer, isReady, isPlaying))
    case None => isPlaying
    case Some(e) => OnEvent(isPlaying, e)
  }

  /** With a ready player a click flips the playing flag, and two clicks
      restore it; without one the click changes nothing. */
  lemma ClickToggles(hasPlayer: bool, isReady: bool, isPlaying: bool)
    ensures hasPlayer && isReady ==> AfterClick(hasPlayer, isReady, isPlaying) == !isPlaying
    ensures hasPlayer && isReady ==>
              AfterClick(hasPlayer, isReady, AfterClick(hasPlayer, isReady, isPlaying)) == isPlaying
    ensures !(hasPlayer && isReady) ==> AfterClick(hasPlayer, isReady, isPlaying) == isPlaying
  {
  }
  /** `s.split('?')[0]`: the text before the first `?`, or all of `s`. */
  function BeforeQuestion(s: string): (r: string)
    ensures |r| <= |s| && r == s[..|r|]
    ensures forall i :: 0 <= i < |r| ==> r[i] != '?'
    ensures |r| == |s| || s[|r|] == '?'
  {
    match IndexOf(s, "?", 0)
    case None =>
      NoQuestionBefore(s, |s|);
      s
    case Some(i) =>
      NoQuestionBefore(s, i);
      assert s[i..i + 1] == "?";
      s[..i]
  }

  /** Where `indexOf('?')` found nothing, no character is a `?`. */
  lemma NoQuestionBefore(s: string, n: nat)
    requires n <= |s|
    requires forall j :: 0 <= j < n ==> !OccursAt(s, "?", j)
    ensures forall j :: 0 <= j < n ==> s[j] != '?'
  {
    forall j | 0 <= j < n
      ensures s[j] != '?'
    {
      assert !OccursAt(s, "?", j);
      assert s[j..j + 1] == [s[j]];
    }
  }

  /** The path of the "watch on Vimeo" link shown when the player fails to
      load: what follows `https://vimeo.com/` is the parsed id cut at its
      first `?`, or the text `undefined` when the parser gives null, since
      optional chaining yields `undefined` and the template prints it. On
      every id the parser returns, the cut at `?` gives the numeric id that
      the `?h=` split hands to the player. */
  function ErrorLinkPath(vimeoId: Option<string>): (r: string)
    ensures GetVideoId(vimeoId).None? ==> r == "undefined"
    ensures GetVideoId(vimeoId).Some? ==> IsPlainId(r) && r == SplitIdHash(GetVideoId(vimeoId).value).0
  {
    match GetVideoId(vimeoId)
    case None => "undefined"
    case Some(v) =>
      CutMatchesSplit(v);
      BeforeQuestion(v)
  }

  /** Digits followed by nothing or by a `?` are what the cut keeps. */
  lemma CutAfterDigits(v: string, d: string, t: string)
    requires v == d + t && IsPlainId(d) && (|t| == 0 || t[0] == '?')
    ensures BeforeQuestion(v) == d
  {
    var r := BeforeQuestion(v);
    assert forall i :: 0 <= i < |d| ==> v[i] == d[i] && InClass(d[i], Digit);
    assert |t| > 0 ==> v[|d|] == t[0];
    assert v[..|d|] == d;
  }

  /** On an accepted id the cut at `?` and the `?h=` split agree. */
  lemma CutMatchesSplit(v: string)
    requires IsVideoId(v)
    ensures IsPlainId(BeforeQuestion(v)) && BeforeQuestion(v) == SplitIdHash(v).0
  {
    if IsHashedId(v) {
      var d, h :| v == d + HashMarker + h && IsPlainId(d) && NonEmptyRun(h, Word);
      CutHashed(v, d, h);
    } else {
      CutPlain(v);
    }
  }

  lemma CutHashed(v: string, d: string, h: string)
    requires v == d + HashMarker + h && IsPlainId(d) && NonEmptyRun(h, Word)
    ensures BeforeQuestion(v) == d && SplitIdHash(v).0 == d
  {
    assert v == d + (HashMarker + h);
    CutAfterDigits(v, d, HashMarker + h);
    SplitJoinRoundTrip(d, Some(h));
  }

  lemma CutPlain(v: string)
    requires IsPlainId(v)
    ensures BeforeQuestion(v) == v && SplitIdHash(v).0 == v
  {
    assert v == v + "";
    CutAfterDigits(v, v, "");
    SplitJoinRoundTrip(v, None);
  }
}
